=== FILE: README.md ===
# blast.py in Dafny

`blast.py` runs a BLAST search on several processes at once. It does four
things, and this project models each of them:

1. **Split the query.** `split_fasta` scans the query FASTA file line by line. It
   records the byte offset of every line that starts with `>`, plus the file
   length as a sentinel. It then cuts the file into shards of
   `ceil(records / threads)` whole records each.
2. **Build the command.** The BLAST command line is assembled from the parsed
   options. The database type handed to makeblastdb is chosen at the same point.
3. **Run the workers.** One worker process is started per shard. Each runs BLAST
   on its shard into a fresh output file, then deletes the shard. All workers are
   started, then all are joined.
4. **Combine.** `combine` writes a tab-separated header line into the output file.
   It then appends every worker output in shard order, copying in chunks of
   1024³ bytes and deleting each output after it is copied.

Files are byte sequences, and the working directory is a map from name to
contents. Temporary names come from `make_file`. They are modelled as an
injective supply of names, unused in the initial directory and different from
the output path. BLAST itself is an arbitrary function: it maps the command and
a query's bytes to a return status and the bytes of its output file. Scheduling
is an arbitrary completion order.

Modules:

- `Bytes`: byte strings, `Flatten`, `Join`/`SplitOn` and increasing offset lists.
- `Results`: the `Option` and `Result` types.
- `Scan`: the offset scan.
- `Windowing`: step arithmetic and the generator loop, with Python's slice clamping.
- `SplitFasta`: shards.
- `Combine`: the merge.
- `Commands`: the command line.
- `Dispatch`: workers, scheduling and the end-to-end job.

Three behaviours of the code that a reader of its options might not expect,
modelled as the code has them:

- **Failed workers.** The worker's `assert` at blast.py:133 fails when BLAST
  exits non-zero. That ends only the worker process: its shard file stays
  behind, and its output stays as BLAST left it. The parent only joins
  (blast.py:210-211) and never looks at exit codes, so the run still combines
  and finishes (`Dispatch.PipelineResult` succeeds for every `blast`).
- **Argument order.** blast.py:130 appends `-query` and `-out` after the fixed
  options and the program-specific ones.
- **Which executable runs.** The `--blastn` option (blast.py:43-44) and its
  siblings name an executable path. The command built at blast.py:181 starts
  with the program name (`blastn`, …) instead, so whatever is on `PATH` runs.

## Model

| member | source | states |
|---|---|---|
| Scan.LineEnd | blast.py:105 | one `readline` from a line start ends just past the first newline, or at end of file, and reads no other newline |
| Scan.ScanFrom | blast.py:104-110 | the scan loop collects, in increasing order, exactly the record starts from its position on, and ends with the file length |
| Scan.Offsets | blast.py:102-110 | the offset list is strictly increasing, ends with the file length, and holds exactly the offsets of lines that begin with `>` plus that length |
| Scan.FirstOffset | blast.py:102-110 | the first offset is the first record start (or the file length), and no record starts before it |
| Scan.SliceOffsets | blast.py:118-120 | bytes cut between two boundary offsets, scanned on their own, have exactly the enclosed records' offsets, shifted to zero |
| Windowing.CeilDivIsCeiling | blast.py:111 | the step is the ceiling of records / threads, for either sign of the thread count |
| Windowing.ClampFromEnd | blast.py:114 | a slice bound past the end of the list stops at the end; a negative bound counts back from the end, and one further back than the start stops at the start |
| Windowing.Strides | blast.py:113-123 | a positive step from record i gives windows exactly when record i exists (i < r, the record count); the first starts at i, the last ends at index r, the end of the records, and each is non-empty and ends `step` records after its start or at index r, whichever comes first |
| Windowing.StridesLink | blast.py:113-123 | consecutive windows meet: each ends where the next begins, and every window but the last holds exactly `step` records |
| Windowing.Windows | blast.py:111-123 | every window the loop yields covers a non-empty run of records |
| Windowing.GeneratorLoopAgrees | blast.py:112-123 | the loop as written, with Python slicing, yields exactly the closed-form windows for every step, positive, zero or negative |
| Windowing.StepCount | blast.py:111-123 | for n ≥ 1 threads there are ceil(r / step) shards, none exactly when there are no records, and at most n and at most r |
| Windowing.WindowShape | blast.py:111-123 | window k holds records k·step to min((k+1)·step, r); all but the last are full |
| Windowing.WindowsTile | blast.py:113-123 | the windows tile the records: they start at 0, each ends where the next begins, and the last ends at r |
| Windowing.NegativeWindows | blast.py:111-116 | a negative thread count gives a step ≤ 0 and at most one window, which stops short of the last record |
| Windowing.Examples | blast.py:111-123 | 10 records over 3 threads give shards of 4, 4 and 2 records; over 6 threads the step is 2 and only 5 shards come out |
| SplitFasta.Split | blast.py:101-125 | splitting fails exactly when the thread count is zero (the division raises) |
| SplitFasta.SplitCount | blast.py:111-123 | the shard count relation of `StepCount`, on a file's records |
| SplitFasta.ShardRange | blast.py:111-120 | for n ≥ 1, shard k is the file's bytes from the start of record k·step to the start of record min((k+1)·step, r), which is the end of the file when that is r |
| SplitFasta.LoopSlices | blast.py:113-123 | for any increasing boundary list ending at the file length and any step, the loop's byte ranges cut out exactly the shards of the closed-form windows |
| SplitFasta.SplitIsGeneratorLoop | blast.py:113-123 | the shards are the byte ranges the loop yields as written |
| SplitFasta.ShardsRecordAligned | blast.py:113-122 | every shard is non-empty, starts at a record header, and ends at the next record header or at end of file |
| SplitFasta.ShardRecords | blast.py:118-120 | each shard, read as a file of its own, holds exactly its window's records |
| SplitFasta.StridesJoin | blast.py:113-123 | for any increasing boundary list and positive step, the shards from record i on, concatenated in order, are the bytes from record i to the end of the file |
| SplitFasta.SplitRoundTrip | blast.py:101-125 | for n ≥ 1, the shards concatenated in order are the file from its first record header on; the bytes dropped before it hold no record header |
| SplitFasta.NoRecordsNoShards | blast.py:108-116 | a file without record headers has offsets [len] and step 0, and yields no shard, without error |
| SplitFasta.NegativeThreadsLoseRecords | blast.py:111-123 | with a negative thread count and at least one record, at most one shard comes out and records are lost |
| Combine.HeaderColumns | blast.py:149-150 | the header is one line, ending in its only newline; the bytes before that newline are the character codes of the ten column names joined by tabs, and splitting that text at tabs gives back the ten names in order |
| Combine.MergeClosedForm | blast.py:147-159 | `combine` succeeds exactly when the inputs are distinct and all exist; then the output file is header + inputs in list order, the inputs are gone, and nothing else changes |
| Combine.CopyChunked | blast.py:153-155 | the chunked copy loop appends exactly the whole input, for any positive chunk size |
| Combine.CombineFiles | blast.py:147-159 | the loops of `combine` reach the state `MergeClosedForm` characterises |
| Commands.Decimal | blast.py:190 | `str(n)` gives one or more decimal digits, with no leading zero |
| Commands.DecimalRoundTrip | blast.py:190 | reading back `str(n)` gives n |
| Commands.CommandOptions | blast.py:181-194 | for the programs it builds, the command starts with the program name, and each option reads back its value: `-db`, `-num_threads 1`, `-outfmt`, `-strand`, `-query_gencode` except for blastn, `-db_gencode` only for tblastx; nothing else |
| Commands.CommandFailsExactly | blast.py:187-194 | building the command fails exactly for blastp and tblastn |
| Commands.IntendedOptions | blast.py:181-194 | the corrected command reads back the same options per program, with `-db_gencode` for tblastn and nothing extra for blastp |
| Commands.CommandAsIntended | blast.py:187-192 | where the code builds a command, it is the corrected one |
| Commands.DbTypeMatchesDatabase | blast.py:174 | the database is nucleotide exactly for blastn and for the programs whose command translates the database |
| Commands.WorkerOptions | blast.py:130 | a worker's argument list keeps the shared command and reads back its shard as `-query` and its output as `-out` |
| Dispatch.RunTaskStep | blast.py:128-135 | one worker writes its output, removes its shard only on success, and touches no other file |
| Dispatch.DescribesUnique | blast.py:208-211 | the state after a set of workers has finished is determined by that set |
| Dispatch.RunAllDescribed | blast.py:208-211 | once all workers finish, in any order, each output holds BLAST's output for its shard, and a shard remains exactly when its worker failed |
| Dispatch.CompletionOrderIrrelevant | blast.py:208-211 | any two completion orders end in the same file-system state |
| Dispatch.TasksSeparate | blast.py:117-201 | the shard and output names drawn in call order never collide, and no shard name and no output name is the output path |
| Dispatch.LaunchEntries | blast.py:117-201 | after launching, each shard file holds its shard, each output file is empty, and nothing else changed |
| Dispatch.PipelineResult | blast.py:200-217 | after the split, `combine` never fails: output = header + each shard's BLAST output in shard order, outputs removed, failed shards left, no name the generator did not hand out present, and every file outside the generator's names unchanged |
| Dispatch.PipelineOrderIrrelevant | blast.py:208-217 | for fixed shards, the result does not depend on the completion order |
| Dispatch.JobOutcome | blast.py:200-217 | with the corrected command, the run fails exactly when the query is missing or threads is zero; otherwise the output is the header followed by the BLAST output of each shard in shard order |
| Dispatch.JobOrderIrrelevant | blast.py:208-217 | two schedules of the workers give the same result |
| Dispatch.JobAsWrittenOutcome | blast.py:187-200 | as written, the run fails for blastp and tblastn before the query is opened, whatever the query; for the other programs it fails exactly when the query is missing or threads is zero, and otherwise gives the corrected run's result |
| Dispatch.JobEcho | blast.py:200-217 | with a search that echoes its query, the output is the header followed by the query from its first record on: splitting and combining drop and reorder nothing |

## Left out

- Not modelled:
  - argument parsing, the `which`/`os.access` checks and the timestamped progress prints (I/O);
  - running makeblastdb and `remove_blastdb`: external programs and a directory scan. Only the database type is modelled.
- BLAST itself is an arbitrary function: it takes the command and the query's bytes, and returns a status and output bytes.
  - Its output does not depend on the temporary names it is given.
  - `Commands.WorkerOptions` states how those names reach it.
- Scheduling:
  - Real concurrency is modelled as each worker's whole effect happening at one point, in an arbitrary completion order.
  - This is sound because the workers touch disjoint files (`Dispatch.TasksSeparate`).
- Filesystem errors are not modelled: out of disk space, permissions, and a `make_file` that fails.
- Dispatch.JobOutcome: states the run with the corrected command (`Commands.IntendedCommand`). The run as written is `Dispatch.JobAsWritten`, which fails for blastp and tblastn (`Dispatch.JobAsWrittenOutcome`). See Findings.
- Windowing.CeilDiv: integer ceiling.
  - Python computes `ceil(r / n)` in floating point.
  - The two agree while the record count is below 2^53.
- Bytes.Ascii: folds characters above 0x7F to seven bits. The header and all options are ASCII.
- Combine.Merge: on a missing or repeated input, the error names that input but does not carry the state Python leaves behind. That state is the output file truncated and holding the header and the earlier inputs, with those inputs removed.
- Combine.Merge: requires that the output path is not one of the inputs.
  - In Python that case depends on write buffering.
  - The script never does it, because outputs are fresh temporary names.
- Combine.CombineFiles: takes the chunk size as a parameter (any positive value; the script reads 1024³ bytes at a time). An empty `read` is end of file.

## Findings

| source | as written | input that shows it | evidently intended | confidence | as-written member | corrected member |
|---|---|---|---|---|---|---|
| blast.py:193 | the fourth test of the elif chain subscripts the argparse namespace (`parameters['function']`). This raises TypeError before any comparison, so the run aborts before any search | `--function blastp` or `--function tblastn` | tblastn gets `-db_gencode <table>`; blastp gets the base command only | high; not executed | Commands.CommandFailsExactly | Commands.IntendedOptions |

=== FILE: bytes.dfy ===
/** Byte strings and the list operations the pipeline is built from. */
module Bytes {

  /** One octet of a file opened in binary mode. */
  newtype byte = b: int | 0 <= b < 0x100

  const Newline: byte := 0x0A
  /** The FASTA record marker '>'. */
  const Marker: byte := 0x3E

  /** The bytes `str.encode()` produces for ASCII text: one byte per
      character, its code point. Other characters are outside this model and
      are folded to seven bits. */
  function Ascii(s: string): (r: seq<byte>)
    ensures |r| == |s|
    ensures forall i :: 0 <= i < |s| && s[i] as int < 0x80 ==> r[i] as int == s[i] as int
  {
    if |s| == 0 then [] else [(s[0] as int % 0x80) as byte] + Ascii(s[1..])
  }

  /** The parts written one after another, first to last. */
  function Flatten<T>(parts: seq<seq<T>>): seq<T>
  {
    if |parts| == 0 then [] else parts[0] + Flatten(parts[1..])
  }

  /** The parts from index j on are part j followed by the parts after it. */
  lemma FlattenFrom<T>(parts: seq<seq<T>>, j: nat)
    requires j < |parts|
    ensures Flatten(parts[j..]) == parts[j] + Flatten(parts[j + 1..])
  {
    assert parts[j..][1..] == parts[j + 1..];
  }

  /** Joins strings with a separator, as Python's `sep.join(parts)`. */
  function Join(parts: seq<string>, sep: string): string
  {
    if |parts| == 0 then ""
    else if |parts| == 1 then parts[0]
    else parts[0] + sep + Join(parts[1..], sep)
  }

  /** Splits text at every occurrence of c, as Python's `s.split(c)`. */
  function SplitOn(s: string, c: char): (parts: seq<string>)
    ensures |parts| >= 1
  {
    if |s| == 0 then [""]
    else
      var rest := SplitOn(s[1..], c);
      if s[0] == c then [""] + rest else [[s[0]] + rest[0]] + rest[1..]
  }

  lemma {:induction false} SplitOnPlain(w: string, t: string, c: char)
    requires c !in w
    ensures SplitOn(w + t, c) == [w + SplitOn(t, c)[0]] + SplitOn(t, c)[1..]
    decreases |w|
  {
    if |w| > 0 {
      assert (w + t)[1..] == w[1..] + t;
      assert (w + t)[0] == w[0];
      SplitOnPlain(w[1..], t, c);
      assert [w[0]] + (w[1..] + SplitOn(t, c)[0]) == w + SplitOn(t, c)[0];
    } else {
      var parts := SplitOn(t, c);
      assert w + t == t && w + parts[0] == parts[0];
      assert parts == [parts[0]] + parts[1..];
    }
  }

  /** Splitting a join at its one-character separator gives the parts back,
      when no part contains the separator. */
  lemma {:induction false} SplitJoin(parts: seq<string>, c: char)
    requires |parts| >= 1
    requires forall i :: 0 <= i < |parts| ==> c !in parts[i]
    ensures SplitOn(Join(parts, [c]), c) == parts
    decreases |parts|
  {
    if |parts| == 1 {
      SplitOnPlain(parts[0], "", c);
      assert parts[0] + "" == parts[0];
    } else {
      var rest := Join(parts[1..], [c]);
      SplitJoin(parts[1..], c);
      assert parts[0] + [c] + rest == parts[0] + ([c] + rest);
      SplitOnPlain(parts[0], [c] + rest, c);
      assert ([c] + rest)[1..] == rest;
      assert parts[0] + "" == parts[0];
      assert parts == [parts[0]] + parts[1..];
    }
  }

  /** A join contains a character only if a part or the separator does. */
  lemma {:induction false} JoinAvoids(parts: seq<string>, sep: string, c: char)
    requires c !in sep
    requires forall i :: 0 <= i < |parts| ==> c !in parts[i]
    ensures c !in Join(parts, sep)
    decreases |parts|
  {
    if |parts| > 1 {
      JoinAvoids(parts[1..], sep, c);
    }
  }

  /** The text is a word of lower-case ASCII letters. */
  predicate LowerWord(s: string)
  {
    |s| == 0 || ('a' <= s[0] <= 'z' && LowerWord(s[1..]))
  }

  /** A lower-case word is ASCII and holds no tab, newline or space. */
  lemma {:induction false} LowerWordPlain(s: string)
    requires LowerWord(s)
    ensures IsAscii(s) && '\t' !in s && '\n' !in s && ' ' !in s
    decreases |s|
  {
    if |s| > 0 {
      LowerWordPlain(s[1..]);
      assert s == [s[0]] + s[1..];
    }
  }

  /** Every character of the text is ASCII. */
  predicate IsAscii(s: string)
  {
    forall i :: 0 <= i < |s| ==> s[i] as int < 0x80
  }

  lemma {:induction false} JoinAscii(parts: seq<string>, sep: string)
    requires IsAscii(sep)
    requires forall i :: 0 <= i < |parts| ==> IsAscii(parts[i])
    ensures IsAscii(Join(parts, sep))
    decreases |parts|
  {
    if |parts| > 1 {
      JoinAscii(parts[1..], sep);
    }
  }

  function Min(a: int, b: int): int
  {
    if a <= b then a else b
  }

  /** No element occurs twice. */
  ghost predicate Distinct<T>(s: seq<T>)
  {
    forall i, j :: 0 <= i < j < |s| ==> s[i] != s[j]
  }

  /** Strictly increasing sequence of offsets. */
  ghost predicate Increasing(s: seq<nat>)
  {
    forall i, j :: 0 <= i < j < |s| ==> s[i] < s[j]
  }

  lemma HeadIsMember<T>(t: seq<T>)
    ensures |t| > 0 ==> t[0] in t
  {
  }

  lemma HeadsAgree(s: seq<nat>, t: seq<nat>)
    requires Increasing(s) && Increasing(t) && |s| > 0 && |t| > 0
    requires forall x :: x in s <==> x in t
    ensures s[0] == t[0]
  {
    assert s[0] in t && t[0] in s;
    assert forall i :: 0 <= i < |t| ==> t[0] <= t[i];
    assert forall i :: 0 <= i < |s| ==> s[0] <= s[i];
  }

  lemma TailsAgree(s: seq<nat>, t: seq<nat>)
    requires Increasing(s) && Increasing(t) && |s| > 0 && |t| > 0 && s[0] == t[0]
    requires forall x :: x in s <==> x in t
    ensures forall x :: x in s[1..] <==> x in t[1..]
  {
    forall x
      ensures x in s[1..] <==> x in t[1..]
    {
      if x in s[1..] {
        var i :| 1 <= i < |s| && s[i] == x;
        assert x > s[0] && x in t;
        assert x != t[0];
      }
      if x in t[1..] {
        var i :| 1 <= i < |t| && t[i] == x;
        assert x > t[0] && x in s;
        assert x != s[0];
      }
    }
  }

  /** Two strictly increasing sequences holding the same values are the same sequence. */
  lemma {:induction false} IncreasingUnique(s: seq<nat>, t: seq<nat>)
    requires Increasing(s) && Increasing(t)
    requires forall x :: x in s <==> x in t
    ensures s == t
    decreases |s|
  {
    HeadIsMember(s);
    HeadIsMember(t);
    if |s| > 0 && |t| > 0 {
      HeadsAgree(s, t);
      TailsAgree(s, t);
      IncreasingUnique(s[1..], t[1..]);
      assert s == [s[0]] + s[1..];
      assert t == [t[0]] + t[1..];
    }
  }
}

=== FILE: combine.dfy ===
/** `combine`: the merged result file, a fixed header line followed by every
    per-shard output in list order, each copied in fixed-size chunks and
    then removed. */
module Combine {
  import opened Bytes
  import opened Results

  /** File names, and the working directory as a map from name to contents. */
  type Path = string
  type Fs = map<Path, seq<byte>>

  /** The columns of blast's tabular output format 6 that the run asks for,
      in order; the header line names them. */
  const Columns: seq<string> :=
    ["qseqid", "qstart", "qend", "qlen", "sseqid", "sstart", "send", "slen", "pident", "score"]

  /** The header line: the column names joined by tabs, encoded, and a newline. */
  function Header(): seq<byte>
  {
    Ascii(Join(Columns, "\t")) + [Newline]
  }

  /** Every column name is a lower-case word. */
  lemma ColumnsPlain()
    ensures forall i :: 0 <= i < |Columns| ==>
              IsAscii(Columns[i]) && '\t' !in Columns[i] && '\n' !in Columns[i] && ' ' !in Columns[i]
  {
    forall i | 0 <= i < |Columns|
      ensures IsAscii(Columns[i]) && '\t' !in Columns[i] && '\n' !in Columns[i] && ' ' !in Columns[i]
    {
      assert LowerWord(Columns[i]);
      LowerWordPlain(Columns[i]);
    }
  }

  /** A header line built from plain column names is one line that splits
      back into those names. */
  lemma HeaderOf(cols: seq<string>)
    requires |cols| >= 1
    requires forall i :: 0 <= i < |cols| ==> IsAscii(cols[i]) && '\t' !in cols[i] && '\n' !in cols[i]
    ensures var h := Ascii(Join(cols, "\t")) + [Newline];
            && h[|h| - 1] == Newline
            && (forall i :: 0 <= i < |h| - 1 ==> h[i] != Newline)
            && SplitOn(Join(cols, "\t"), '\t') == cols
  {
    SplitJoin(cols, '\t');
    JoinAvoids(cols, "\t", '\n');
    JoinAscii(cols, "\t");
    var line := Join(cols, "\t");
    forall i | 0 <= i < |line|
      ensures Ascii(line)[i] != Newline
    {
      assert line[i] != '\n';
    }
  }

  /** The header is a single line: the newline that ends it is its only one,
      the bytes before it are the character codes of the tab-joined column
      names, and splitting that text at tabs gives back exactly the ten
      column names, in order. */
  lemma HeaderColumns()
    ensures |Header()| >= 1 && Header()[|Header()| - 1] == Newline
    ensures forall i :: 0 <= i < |Header()| - 1 ==> Header()[i] != Newline
    ensures |Header()| == |Join(Columns, "\t")| + 1
    ensures forall i :: 0 <= i < |Header()| - 1 ==> Header()[i] as int == Join(Columns, "\t")[i] as int
    ensures SplitOn(Join(Columns, "\t"), '\t') == Columns
  {
    ColumnsPlain();
    HeaderOf(Columns);
    JoinAscii(Columns, "\t");
  }

  /** The error `combine` raises: an input file that does not exist, because
      it was never there or an earlier iteration already removed it. */
  datatype CombineError = Missing(path: Path)

  /** The contents of the named files, in order. */
  function Contents(fs: Fs, names: seq<Path>): seq<seq<byte>>
    requires forall i :: 0 <= i < |names| ==> names[i] in fs
  {
    if |names| == 0 then [] else [fs[names[0]]] + Contents(fs, names[1..])
  }

  /** One iteration of the outer loop: input p appended to the target, then
      removed. */
  function AppendFile(state: Fs, target: Path, p: Path): Fs
    requires target in state && p in state && p != target
  {
    state[target := state[target] + state[p]] - {p}
  }

  /** The outer loop from some point on, over the inputs still to copy. */
  function MergeFrom(state: Fs, inputs: seq<Path>, target: Path): Result<Fs, CombineError>
    requires target in state && target !in inputs
  {
    if |inputs| == 0 then Success(state)
    else if inputs[0] !in state then Failure(Missing(inputs[0]))
    else MergeFrom(AppendFile(state, target, inputs[0]), inputs[1..], target)
  }

  /** `combine(inputs, target)` as the sequence of file-system steps it takes:
      the target is created or truncated and given the header, then each
      input in turn is appended and removed. */
  function Merge(fs: Fs, inputs: seq<Path>, target: Path): Result<Fs, CombineError>
    requires target !in inputs
  {
    MergeFrom(fs[target := Header()], inputs, target)
  }

  lemma ContentsFrom(state: Fs, inputs: seq<Path>, target: Path)
    requires |inputs| > 0 && target in state && target !in inputs
    requires forall i :: 0 <= i < |inputs| ==> inputs[i] in state
    requires forall i :: 1 <= i < |inputs| ==> inputs[i] != inputs[0]
    ensures var next := AppendFile(state, target, inputs[0]);
            && (forall i :: 0 <= i < |inputs[1..]| ==> inputs[1..][i] in next)
            && Contents(next, inputs[1..]) == Contents(state, inputs[1..])
  {
    var next := AppendFile(state, target, inputs[0]);
    var rest := inputs[1..];
    assert forall i :: 0 <= i < |rest| ==> rest[i] in next && next[rest[i]] == state[rest[i]];
    ContentsAgree(state, next, rest);
  }

  lemma {:induction false} ContentsAgree(a: Fs, b: Fs, names: seq<Path>)
    requires forall i :: 0 <= i < |names| ==> names[i] in a && names[i] in b && a[names[i]] == b[names[i]]
    ensures Contents(a, names) == Contents(b, names)
    decreases |names|
  {
    if |names| > 0 {
      ContentsAgree(a, b, names[1..]);
    }
  }

  lemma DistinctCons(inputs: seq<Path>)
    requires |inputs| > 0
    ensures Distinct(inputs) <==> Distinct(inputs[1..]) && inputs[0] !in inputs[1..]
  {
    var rest := inputs[1..];
    if Distinct(rest) && inputs[0] !in rest {
      forall i, j | 0 <= i < j < |inputs|
        ensures inputs[i] != inputs[j]
      {
        assert inputs[j] == rest[j - 1];
        if i > 0 {
          assert inputs[i] == rest[i - 1];
        }
      }
    }
    if Distinct(inputs) {
      forall i | 0 <= i < |rest|
        ensures rest[i] != inputs[0]
      {
        assert rest[i] == inputs[i + 1];
      }
    }
  }

  lemma PresentCons(state: Fs, inputs: seq<Path>, target: Path)
    requires |inputs| > 0 && inputs[0] in state && target in state && target !in inputs
    ensures var rest := inputs[1..];
            var next := AppendFile(state, target, inputs[0]);
            && ((forall i :: 0 <= i < |rest| ==> rest[i] in next)
                <==> inputs[0] !in rest && forall i :: 0 <= i < |rest| ==> rest[i] in state)
            && ((forall i :: 0 <= i < |inputs| ==> inputs[i] in state)
                <==> forall i :: 0 <= i < |rest| ==> rest[i] in state)
  {
    var rest := inputs[1..];
    if forall i :: 0 <= i < |rest| ==> rest[i] in state {
      forall i | 0 <= i < |inputs|
        ensures inputs[i] in state
      {
        if i > 0 {
          assert inputs[i] == rest[i - 1];
        }
      }
    }
  }

  lemma RemoveStep(state: Fs, inputs: seq<Path>, target: Path, body: seq<byte>)
    requires |inputs| > 0 && inputs[0] in state && target in state && target !in inputs
    ensures var p := inputs[0];
            var next := AppendFile(state, target, p);
            (next - set q | q in inputs[1..])[target := next[target] + body]
              == (state - set q | q in inputs)[target := state[target] + (state[p] + body)]
  {
    var p := inputs[0];
    var next := AppendFile(state, target, p);
    var left := (next - set q | q in inputs[1..])[target := next[target] + body];
    var right := (state - set q | q in inputs)[target := state[target] + (state[p] + body)];
    assert forall q :: q in inputs <==> q == p || q in inputs[1..];
    assert left.Keys == right.Keys;
    assert forall k :: k in left ==> left[k] == right[k];
  }

  /** The outer loop in closed form: it succeeds exactly when the inputs
      still to copy are distinct and all present; then they are gone and the
      target holds what it held followed by their contents, in order. */
  lemma {:induction false} MergeFromClosedForm(state: Fs, inputs: seq<Path>, target: Path)
    requires target in state && target !in inputs
    ensures MergeFrom(state, inputs, target).Success?
        <==> Distinct(inputs) && forall i :: 0 <= i < |inputs| ==> inputs[i] in state
    ensures MergeFrom(state, inputs, target).Success? ==>
              MergeFrom(state, inputs, target).value
                == (state - set p | p in inputs)[target := state[target] + Flatten(Contents(state, inputs))]
    decreases |inputs|
  {
    if |inputs| == 0 {
      assert (state - set p | p in inputs) == state;
      assert Flatten(Contents(state, inputs)) == [];
      assert state[target] + [] == state[target];
    } else if inputs[0] !in state {
    } else {
      var p := inputs[0];
      var rest := inputs[1..];
      var next := AppendFile(state, target, p);
      MergeFromClosedForm(next, rest, target);
      DistinctCons(inputs);
      PresentCons(state, inputs, target);
      if MergeFrom(state, inputs, target).Success? {
        ContentsFrom(state, inputs, target);
        var body := Flatten(Contents(state, rest));
        assert Flatten(Contents(state, inputs)) == state[p] + body by {
          assert Contents(state, inputs) == [state[p]] + Contents(state, rest);
        }
        RemoveStep(state, inputs, target, body);
      }
    }
  }

  lemma StartReplaced(fs: Fs, inputs: seq<Path>, target: Path, first: seq<byte>, final: seq<byte>)
    requires target !in inputs
    ensures (fs[target := first] - set p | p in inputs)[target := final]
         == (fs - set p | p in inputs)[target := final]
  {
    var gone := set p | p in inputs;
    var left := (fs[target := first] - gone)[target := final];
    var right := (fs - gone)[target := final];
    forall k
      ensures k in left <==> k in right
      ensures k in left ==> left[k] == right[k]
    {
      if k != target {
        assert k in left <==> k in fs && k !in gone;
      }
    }
    assert left == right;
  }

  /** `combine` in closed form: it succeeds exactly when the inputs are
      distinct and all present. Then the inputs are removed, nothing else
      changes, and the target holds the header once followed by every
      input's contents in list order. */
  lemma MergeClosedForm(fs: Fs, inputs: seq<Path>, target: Path)
    requires target !in inputs
    ensures Merge(fs, inputs, target).Success?
        <==> Distinct(inputs) && forall i :: 0 <= i < |inputs| ==> inputs[i] in fs
    ensures Merge(fs, inputs, target).Success? ==>
              Merge(fs, inputs, target).value
                == (fs - set p | p in inputs)[target := Header() + Flatten(Contents(fs, inputs))]
  {
    var start := fs[target := Header()];
    MergeFromClosedForm(start, inputs, target);
    assert forall i :: 0 <= i < |inputs| ==> (inputs[i] in start <==> inputs[i] in fs);
    if forall i :: 0 <= i < |inputs| ==> inputs[i] in fs {
      ContentsAgree(start, fs, inputs);
      StartReplaced(fs, inputs, target, Header(), Header() + Flatten(Contents(fs, inputs)));
    }
  }

  /** The inner copy loop: read at most `chunk` bytes, write them, and stop
      at the first write of nothing, which comes exactly at end of file. */
  method CopyChunked(dst: seq<byte>, src: seq<byte>, chunk: nat) returns (out: seq<byte>)
    requires chunk > 0
    ensures out == dst + src
  {
    var offset := 0;
    out := dst;
    while true
      invariant 0 <= offset <= |src|
      invariant out == dst + src[..offset]
      decreases |src| - offset
    {
      var piece := src[offset..Min(offset + chunk, |src|)];
      if |piece| == 0 {
        break;
      }
      out := out + piece;
      offset := offset + |piece|;
      assert src[..offset] == src[..offset - |piece|] + piece;
    }
    assert src[..offset] == src;
  }

  /** `combine(inputs, target)` with its loops: for any positive chunk size
      it reaches exactly the state `Merge` describes. */
  method CombineFiles(fs: Fs, inputs: seq<Path>, target: Path, chunk: nat)
    returns (r: Result<Fs, CombineError>)
    requires chunk > 0 && target !in inputs
    ensures r == Merge(fs, inputs, target)
  {
    var state := fs[target := Header()];
    var i := 0;
    while i < |inputs|
      invariant 0 <= i <= |inputs| && target in state
      invariant MergeFrom(state, inputs[i..], target) == Merge(fs, inputs, target)
    {
      var p := inputs[i];
      assert inputs[i..][0] == p && inputs[i..][1..] == inputs[i + 1..];
      if p !in state {
        return Failure(Missing(p));
      }
      var copied := CopyChunked(state[target], state[p], chunk);
      state := state[target := copied] - {p};
      i := i + 1;
    }
    assert inputs[i..] == [];
    return Success(state);
  }
}

=== FILE: commands.dfy ===
/** The blast command line: the fixed head every search gets, the options
    keyed on the search program, the database type, and the per-worker
    query and output options. */
module Commands {
  import opened Bytes
  import opened Results

  /** The five search programs `--function` accepts. */
  datatype Program = Blastn | Blastp | Blastx | Tblastn | Tblastx

  function ProgramName(p: Program): string
  {
    match p
    case Blastn => "blastn"
    case Blastp => "blastp"
    case Blastx => "blastx"
    case Tblastn => "tblastn"
    case Tblastx => "tblastx"
  }

  /** The strands `--strand` accepts. */
  datatype Strand = Both | Minus | Plus

  function StrandName(s: Strand): string
  {
    match s
    case Both => "both"
    case Minus => "minus"
    case Plus => "plus"
  }

  /** The parsed options the command is built from. */
  datatype Params = Params(program: Program, target: string, strand: Strand, codonTable: nat)

  /** The `-dbtype` given to makeblastdb when the target is a FASTA file. */
  function DbType(p: Program): string
  {
    if p == Blastn || p == Tblastn || p == Tblastx then "nucl" else "prot"
  }

  /** The `-outfmt` value: tabular format 6 with the ten columns the header
      of the merged file names, in the same order. */
  const Outfmt: string := "6 qseqid qstart qend qlen sseqid sstart send slen pident score"

  /** A decimal digit. */
  function Digit(d: nat): char
    requires d < 10
  {
    "0123456789"[d]
  }

  /** `str(n)` for a natural number: its decimal digits, most significant
      first, without leading zeros. */
  function Decimal(n: nat): (s: string)
    ensures |s| >= 1
    ensures forall i :: 0 <= i < |s| ==> '0' <= s[i] <= '9'
    ensures |s| > 1 ==> s[0] != '0'
    decreases n
  {
    if n < 10 then [Digit(n)] else Decimal(n / 10) + [Digit(n % 10)]
  }

  /** The value of a string of decimal digits, most significant first. */
  function DecimalValue(s: string): nat
    requires forall i :: 0 <= i < |s| ==> '0' <= s[i] <= '9'
  {
    if |s| == 0 then 0
    else DecimalValue(s[..|s| - 1]) * 10 + (s[|s| - 1] as int - '0' as int)
  }

  /** `int(str(n)) == n`: the codon table number the command carries is the
      one that was asked for. */
  lemma {:induction false} DecimalRoundTrip(n: nat)
    ensures DecimalValue(Decimal(n)) == n
    decreases n
  {
    var s := Decimal(n);
    if n < 10 {
      assert s[..|s| - 1] == [];
    } else {
      DecimalRoundTrip(n / 10);
      assert s[..|s| - 1] == Decimal(n / 10);
    }
  }

  /** The head every blast command starts with (blast.py:181-184). */
  function BaseCommand(q: Params): seq<string>
  {
    [ProgramName(q.program), "-db", q.target, "-num_threads", "1", "-outfmt", Outfmt]
  }

  /** The error the elif chain raises for blastp and tblastn: the parsed
      options are subscripted, `parameters['function']`, which an argparse
      namespace does not support (TypeError). */
  datatype CommandError = NotSubscriptable

  /** The command as blast.py builds it: the base, then the options of the
      first matching branch of the elif chain. blastp and tblastn reach the
      fourth test, which raises before any comparison is made. */
  function BuildCommand(q: Params): Result<seq<string>, CommandError>
  {
    var base := BaseCommand(q);
    var strand := StrandName(q.strand);
    var code := Decimal(q.codonTable);
    if q.program == Blastn then Success(base + ["-strand", strand])
    else if q.program == Blastx then Success(base + ["-strand", strand, "-query_gencode", code])
    else if q.program == Tblastx then
      Success(base + ["-strand", strand, "-db_gencode", code, "-query_gencode", code])
    else Failure(NotSubscriptable)
  }

  /** The command the elif chain evidently means to build: as written, except
      that tblastn gets `-db_gencode` and blastp gets nothing more. */
  function IntendedCommand(q: Params): seq<string>
  {
    var base := BaseCommand(q);
    var strand := StrandName(q.strand);
    var code := Decimal(q.codonTable);
    match q.program
    case Blastn => base + ["-strand", strand]
    case Blastx => base + ["-strand", strand, "-query_gencode", code]
    case Tblastx => base + ["-strand", strand, "-db_gencode", code, "-query_gencode", code]
    case Tblastn => base + ["-db_gencode", code]
    case Blastp => base
  }

  /** The arguments blast.py passes to one worker (blast.py:130). */
  function WorkerArgv(command: seq<string>, query: string, output: string): seq<string>
  {
    command + ["-query", query, "-out", output]
  }

  /** The value of an option in a list of option/value pairs, as blast reads
      it: the value after the first occurrence of the option name. */
  function PairLookup(args: seq<string>, flag: string): Option<string>
  {
    if |args| < 2 then None
    else if args[0] == flag then Some(args[1])
    else PairLookup(args[2..], flag)
  }

  /** The value of an option in a command line: the program name comes first,
      then option/value pairs. */
  function Flag(argv: seq<string>, flag: string): Option<string>
  {
    if |argv| == 0 then None else PairLookup(argv[1..], flag)
  }

  /** Looking past pairs: lookup in two lists of pairs one after another. */
  lemma {:induction false} PairLookupAppend(a: seq<string>, b: seq<string>, flag: string)
    requires |a| % 2 == 0
    ensures PairLookup(a + b, flag) == if PairLookup(a, flag).Some? then PairLookup(a, flag) else PairLookup(b, flag)
    decreases |a|
  {
    if |a| == 0 {
      assert a + b == b;
    } else {
      assert (a + b)[2..] == a[2..] + b;
      PairLookupAppend(a[2..], b, flag);
    }
  }

  lemma PairLookupCons(k: string, v: string, rest: seq<string>, flag: string)
    ensures PairLookup([k, v] + rest, flag) == if k == flag then Some(v) else PairLookup(rest, flag)
  {
    assert ([k, v] + rest)[2..] == rest;
  }

  /** The options of the fixed head, looked up by name. */
  lemma BaseFlags(q: Params, flag: string)
    ensures var base := BaseCommand(q);
            && |base| == 7 && base[0] == ProgramName(q.program)
            && PairLookup(base[1..], flag) == (if flag == "-db" then Some(q.target)
                                               else if flag == "-num_threads" then Some("1")
                                               else if flag == "-outfmt" then Some(Outfmt)
                                               else None)
  {
    var fmt := Outfmt;
    var args := BaseCommand(q)[1..];
    assert args == ["-db", q.target] + (["-num_threads", "1"] + (["-outfmt", fmt] + []));
    PairLookupCons("-db", q.target, ["-num_threads", "1"] + (["-outfmt", fmt] + []), flag);
    PairLookupCons("-num_threads", "1", ["-outfmt", fmt] + [], flag);
    PairLookupCons("-outfmt", fmt, [], flag);
  }

  /** The options after the fixed head, looked up by name, for every shape
      the elif chain appends. */
  lemma ExtraFlags(strand: string, code: string, flag: string)
    ensures PairLookup([], flag) == None
    ensures PairLookup(["-strand", strand], flag)
         == if flag == "-strand" then Some(strand) else None
    ensures PairLookup(["-strand", strand, "-query_gencode", code], flag)
         == if flag == "-strand" then Some(strand)
            else if flag == "-query_gencode" then Some(code) else None
    ensures PairLookup(["-strand", strand, "-db_gencode", code, "-query_gencode", code], flag)
         == if flag == "-strand" then Some(strand)
            else if flag == "-db_gencode" || flag == "-query_gencode" then Some(code) else None
    ensures PairLookup(["-db_gencode", code], flag)
         == if flag == "-db_gencode" then Some(code) else None
  {
    PairLookupCons("-strand", strand, [], flag);
    PairLookupCons("-strand", strand, ["-query_gencode", code] + [], flag);
    PairLookupCons("-query_gencode", code, [], flag);
    PairLookupCons("-strand", strand, ["-db_gencode", code] + (["-query_gencode", code] + []), flag);
    PairLookupCons("-db_gencode", code, ["-query_gencode", code] + [], flag);
    PairLookupCons("-db_gencode", code, [], flag);
    assert ["-strand", strand] == ["-strand", strand] + [];
    assert ["-strand", strand, "-query_gencode", code] == ["-strand", strand] + (["-query_gencode", code] + []);
    assert ["-strand", strand, "-db_gencode", code, "-query_gencode", code]
        == ["-strand", strand] + (["-db_gencode", code] + (["-query_gencode", code] + []));
    assert ["-db_gencode", code] == ["-db_gencode", code] + [];
  }

  /** Looking up an option in the head followed by the appended options. */
  lemma CommandLookup(q: Params, extra: seq<string>, flag: string)
    ensures var c := BaseCommand(q) + extra;
            && c[0] == ProgramName(q.program)
            && Flag(c, flag) == if PairLookup(BaseCommand(q)[1..], flag).Some?
                                then PairLookup(BaseCommand(q)[1..], flag)
                                else PairLookup(extra, flag)
  {
    var base := BaseCommand(q);
    assert (base + extra)[1..] == base[1..] + extra;
    PairLookupAppend(base[1..], extra, flag);
  }

  /** The command as written, for the three programs it is built for, read
      back option by option: the fixed head, `-strand` for all three,
      `-query_gencode` for blastx and tblastx, `-db_gencode` for tblastx
      only, and no other option, so neither `-query` nor `-out`. */
  lemma CommandOptions(q: Params, flag: string)
    requires BuildCommand(q).Success?
    ensures var c := BuildCommand(q).value;
            && |c| % 2 == 1 && c[0] == ProgramName(q.program)
            && Flag(c, flag)
               == if flag == "-db" then Some(q.target)
                  else if flag == "-num_threads" then Some("1")
                  else if flag == "-outfmt" then Some(Outfmt)
                  else if flag == "-strand" then Some(StrandName(q.strand))
                  else if flag == "-query_gencode" then
                    (if q.program == Blastn then None else Some(Decimal(q.codonTable)))
                  else if flag == "-db_gencode" then
                    (if q.program == Tblastx then Some(Decimal(q.codonTable)) else None)
                  else None
  {
    var strand := StrandName(q.strand);
    var code := Decimal(q.codonTable);
    BaseFlags(q, flag);
    ExtraFlags(strand, code, flag);
    if q.program == Blastn {
      CommandLookup(q, ["-strand", strand], flag);
    } else if q.program == Blastx {
      CommandLookup(q, ["-strand", strand, "-query_gencode", code], flag);
    } else {
      CommandLookup(q, ["-strand", strand, "-db_gencode", code, "-query_gencode", code], flag);
    }
  }

  /** The elif chain raises exactly for blastp and tblastn. */
  lemma CommandFailsExactly(q: Params)
    ensures BuildCommand(q).Failure? <==> q.program == Blastp || q.program == Tblastn
  {
  }

  /** The intended command read back option by option: the fixed head,
      `-strand` for the three nucleotide-query programs, `-query_gencode` for
      the two that translate the query, `-db_gencode` for the two that
      translate the database, and nothing else. */
  lemma IntendedOptions(q: Params, flag: string)
    ensures var c := IntendedCommand(q);
            var p := q.program;
            && |c| % 2 == 1 && c[0] == ProgramName(p)
            && Flag(c, flag)
               == if flag == "-db" then Some(q.target)
                  else if flag == "-num_threads" then Some("1")
                  else if flag == "-outfmt" then Some(Outfmt)
                  else if flag == "-strand" then
                    (if p == Blastn || p == Blastx || p == Tblastx then Some(StrandName(q.strand)) else None)
                  else if flag == "-query_gencode" then
                    (if p == Blastx || p == Tblastx then Some(Decimal(q.codonTable)) else None)
                  else if flag == "-db_gencode" then
                    (if p == Tblastn || p == Tblastx then Some(Decimal(q.codonTable)) else None)
                  else None
  {
    var strand := StrandName(q.strand);
    var code := Decimal(q.codonTable);
    BaseFlags(q, flag);
    ExtraFlags(strand, code, flag);
    match q.program
    case Blastn => CommandLookup(q, ["-strand", strand], flag);
    case Blastx => CommandLookup(q, ["-strand", strand, "-query_gencode", code], flag);
    case Tblastx => CommandLookup(q, ["-strand", strand, "-db_gencode", code, "-query_gencode", code], flag);
    case Tblastn => CommandLookup(q, ["-db_gencode", code], flag);
    case Blastp => CommandLookup(q, [], flag); assert BaseCommand(q) + [] == BaseCommand(q);
  }

  /** Where the elif chain does not raise, it builds the intended command. */
  lemma CommandAsIntended(q: Params)
    requires BuildCommand(q).Success?
    ensures BuildCommand(q).value == IntendedCommand(q)
  {
  }

  /** The database is built as nucleotide exactly for the programs that search
      a nucleotide database untranslated (blastn) or translate it with
      `-db_gencode` (tblastn, tblastx). */
  lemma DbTypeMatchesDatabase(q: Params)
    ensures DbType(q.program) == "nucl"
        <==> q.program == Blastn || Flag(IntendedCommand(q), "-db_gencode").Some?
    ensures DbType(q.program) == "prot" <==> DbType(q.program) != "nucl"
  {
    IntendedOptions(q, "-db_gencode");
  }

  /** A worker's command line reads back the shard it is given as `-query`
      and the output it is given as `-out`, and every other option as the
      shared command has it. */
  lemma WorkerOptions(command: seq<string>, query: string, output: string, flag: string)
    requires |command| % 2 == 1
    requires Flag(command, "-query") == None && Flag(command, "-out") == None
    ensures var w := WorkerArgv(command, query, output);
            && w[..|command|] == command
            && Flag(w, flag) == if flag == "-query" then Some(query)
                                else if flag == "-out" then Some(output)
                                else Flag(command, flag)
  {
    var w := WorkerArgv(command, query, output);
    assert w[1..] == command[1..] + (["-query", query] + (["-out", output] + []));
    PairLookupAppend(command[1..], ["-query", query] + (["-out", output] + []), flag);
    PairLookupCons("-query", query, ["-out", output] + [], flag);
    PairLookupCons("-out", output, [], flag);
    assert |"-query"| == 6 && |"-out"| == 4;
  }
}

=== FILE: dispatch.dfy ===
/** The main script: one BLAST worker per shard, all started and then all
    joined, and their outputs combined. The processes are independent; their
    effects are modelled as file-system steps run one after another in an
    arbitrary completion order. */
module Dispatch {
  import opened Bytes
  import opened Results
  import opened Combine
  import Scan
  import SplitFasta
  import Commands

  /** How one BLAST process ends: whether its return code was zero, and what
      its `-out` file holds afterwards. */
  datatype Run = Run(ok: bool, written: seq<byte>)

  /** The search program seen from outside: what it does given the shared
      command line and the bytes of its query file. */
  type Blast = (seq<string>, seq<byte>) -> Run

  /** One worker: the shard it reads and the output file it writes. */
  datatype Task = Task(query: Path, output: Path)

  /** `run_blast_thread(command, query, output)`: BLAST overwrites the
      output file; the shard is removed only after a zero return code, since
      a failed assert ends the worker before `os.remove`. */
  function RunTask(fs: Fs, command: seq<string>, blast: Blast, t: Task): Fs
    requires t.query in fs
  {
    var run := blast(command, fs[t.query]);
    var written := fs[t.output := run.written];
    if run.ok then written - {t.query} else written
  }

  /** Every file name the tasks use. */
  function Names(tasks: seq<Task>): set<Path>
  {
    (set t | t in tasks :: t.query) + (set t | t in tasks :: t.output)
  }

  /** No two tasks share a file, and no task reads a file another writes. */
  ghost predicate Separate(tasks: seq<Task>)
  {
    forall i, j :: 0 <= i < |tasks| && 0 <= j < |tasks| ==>
      && tasks[i].query != tasks[j].output
      && (i != j ==> tasks[i].query != tasks[j].query && tasks[i].output != tasks[j].output)
  }

  /** A completion order of m workers: each index below m exactly once, and
      nothing else. */
  ghost predicate IsOrder(order: seq<nat>, m: nat)
  {
    && Distinct(order)
    && (forall k :: 0 <= k < |order| ==> order[k] < m)
    && (forall i :: 0 <= i < m ==> i in order)
  }

  /** The tasks still to finish are known, and their shards are in place. */
  ghost predicate Pending(fs: Fs, tasks: seq<Task>, order: seq<nat>)
  {
    forall k :: 0 <= k < |order| ==> order[k] < |tasks| && tasks[order[k]].query in fs
  }

  lemma PendingStep(fs: Fs, command: seq<string>, blast: Blast, tasks: seq<Task>, order: seq<nat>)
    requires Separate(tasks) && Distinct(order) && |order| > 0 && Pending(fs, tasks, order)
    ensures Distinct(order[1..])
    ensures Pending(RunTask(fs, command, blast, tasks[order[0]]), tasks, order[1..])
  {
    var next := RunTask(fs, command, blast, tasks[order[0]]);
    forall k | 0 <= k < |order| - 1
      ensures order[1..][k] < |tasks| && tasks[order[1..][k]].query in next
    {
      assert order[k + 1] != order[0];
    }
  }

  /** The workers finishing one after another in the given order. */
  function RunInOrder(fs: Fs, command: seq<string>, blast: Blast, tasks: seq<Task>, order: seq<nat>): Fs
    requires Separate(tasks) && Distinct(order) && Pending(fs, tasks, order)
    decreases |order|
  {
    if |order| == 0 then fs
    else
      PendingStep(fs, command, blast, tasks, order);
      RunInOrder(RunTask(fs, command, blast, tasks[order[0]]), command, blast, tasks, order[1..])
  }

  /** The same entry, or the same absence, in both states. */
  predicate SameEntry(a: Fs, b: Fs, p: Path)
  {
    (p in a <==> p in b) && (p in a ==> a[p] == b[p])
  }

  /** Task t has run on the shard it found in `start`. */
  predicate Finished(state: Fs, start: Fs, command: seq<string>, blast: Blast, t: Task)
    requires t.query in start
  {
    var run := blast(command, start[t.query]);
    && t.output in state && state[t.output] == run.written
    && if run.ok then t.query !in state else SameEntry(state, start, t.query)
  }

  /** Task t has not run yet. */
  predicate Waiting(state: Fs, start: Fs, t: Task)
  {
    SameEntry(state, start, t.query) && SameEntry(state, start, t.output)
  }

  /** The state reached from `start` once the tasks in `done` have run, in
      whatever order: each of them has written its output (and removed its
      shard if it succeeded), the others have touched nothing, and no file
      outside the tasks has changed. */
  ghost predicate Describes(state: Fs, start: Fs, command: seq<string>, blast: Blast,
                            tasks: seq<Task>, done: set<nat>)
    requires forall i :: 0 <= i < |tasks| ==> tasks[i].query in start
  {
    && (forall i :: 0 <= i < |tasks| && i in done ==> Finished(state, start, command, blast, tasks[i]))
    && (forall i :: 0 <= i < |tasks| && i !in done ==> Waiting(state, start, tasks[i]))
    && (forall p :: p !in Names(tasks) ==> SameEntry(state, start, p))
  }

  lemma NameOf(tasks: seq<Task>, p: Path) returns (i: nat)
    requires p in Names(tasks)
    ensures i < |tasks| && (tasks[i].query == p || tasks[i].output == p)
  {
    var t :| t in tasks && (t.query == p || t.output == p);
    var j :| 0 <= j < |tasks| && tasks[j] == t;
    i := j;
  }

  lemma InNames(tasks: seq<Task>, i: nat)
    requires i < |tasks|
    ensures tasks[i].query in Names(tasks) && tasks[i].output in Names(tasks)
  {
    assert tasks[i] in tasks;
  }

  /** A description fixes the state: two states described alike, by the same
      finished tasks, are equal. */
  lemma DescribesUnique(s1: Fs, s2: Fs, start: Fs, command: seq<string>, blast: Blast,
                        tasks: seq<Task>, d1: set<nat>, d2: set<nat>)
    requires Separate(tasks)
    requires forall i :: 0 <= i < |tasks| ==> tasks[i].query in start
    requires forall i :: 0 <= i < |tasks| ==> (i in d1 <==> i in d2)
    requires Describes(s1, start, command, blast, tasks, d1)
    requires Describes(s2, start, command, blast, tasks, d2)
    ensures s1 == s2
  {
    forall p
      ensures p in s1 <==> p in s2
      ensures p in s1 ==> s1[p] == s2[p]
    {
      if p in Names(tasks) {
        var i := NameOf(tasks, p);
        if i in d1 {
          assert Finished(s1, start, command, blast, tasks[i]);
          assert Finished(s2, start, command, blast, tasks[i]);
        } else {
          assert Waiting(s1, start, tasks[i]) && Waiting(s2, start, tasks[i]);
        }
      } else {
        assert SameEntry(s1, start, p) && SameEntry(s2, start, p);
      }
    }
  }

  /** Running one waiting task extends the description by that task. */
  lemma RunTaskStep(state: Fs, start: Fs, command: seq<string>, blast: Blast,
                    tasks: seq<Task>, done: set<nat>, i: nat)
    requires Separate(tasks) && i < |tasks| && i !in done
    requires forall j :: 0 <= j < |tasks| ==> tasks[j].query in start
    requires Describes(state, start, command, blast, tasks, done)
    ensures tasks[i].query in state
    ensures Describes(RunTask(state, command, blast, tasks[i]), start, command, blast, tasks, done + {i})
  {
    var t := tasks[i];
    assert Waiting(state, start, t);
    var next := RunTask(state, command, blast, t);
    InNames(tasks, i);
    forall j | 0 <= j < |tasks| && j in done + {i}
      ensures Finished(next, start, command, blast, tasks[j])
    {
      if j != i {
        assert Finished(state, start, command, blast, tasks[j]);
      }
    }
    forall j | 0 <= j < |tasks| && j !in done + {i}
      ensures Waiting(next, start, tasks[j])
    {
      assert Waiting(state, start, tasks[j]);
    }
    forall p | p !in Names(tasks)
      ensures SameEntry(next, start, p)
    {
      assert SameEntry(state, start, p);
    }
  }

  /** Every index of the order, gathered as a set. */
  function Indices(order: seq<nat>): set<nat>
  {
    set x | x in order
  }

  /** The indices of a non-empty order: its head and those of its tail. */
  lemma IndicesCons(order: seq<nat>)
    requires |order| > 0
    ensures Indices(order) == {order[0]} + Indices(order[1..])
  {
    assert order == [order[0]] + order[1..];
  }

  /** Workers that have not run yet still find their shards. */
  lemma WaitingPending(state: Fs, start: Fs, command: seq<string>, blast: Blast,
                       tasks: seq<Task>, done: set<nat>, order: seq<nat>)
    requires forall j :: 0 <= j < |tasks| ==> tasks[j].query in start
    requires forall k :: 0 <= k < |order| ==> order[k] < |tasks| && order[k] !in done
    requires Describes(state, start, command, blast, tasks, done)
    ensures Pending(state, tasks, order)
  {
    forall k | 0 <= k < |order|
      ensures order[k] < |tasks| && tasks[order[k]].query in state
    {
      assert Waiting(state, start, tasks[order[k]]);
    }
  }

  /** After the head of the order has run, the rest of the order is still
      made of waiting workers. */
  lemma OrderTail(tasks: seq<Task>, done: set<nat>, order: seq<nat>)
    requires Distinct(order) && |order| > 0
    requires forall k :: 0 <= k < |order| ==> order[k] < |tasks| && order[k] !in done
    ensures forall k :: 0 <= k < |order| - 1 ==> order[1..][k] < |tasks| && order[1..][k] !in done + {order[0]}
  {
    forall k | 0 <= k < |order| - 1
      ensures order[1..][k] < |tasks| && order[1..][k] !in done + {order[0]}
    {
      assert order[k + 1] != order[0];
    }
  }

  lemma {:induction false} RunDescribes(state: Fs, start: Fs, command: seq<string>, blast: Blast,
                                         tasks: seq<Task>, done: set<nat>, order: seq<nat>)
    requires Separate(tasks) && Distinct(order)
    requires forall j :: 0 <= j < |tasks| ==> tasks[j].query in start
    requires forall k :: 0 <= k < |order| ==> order[k] < |tasks| && order[k] !in done
    requires Describes(state, start, command, blast, tasks, done)
    ensures Pending(state, tasks, order)
    ensures Describes(RunInOrder(state, command, blast, tasks, order), start, command, blast,
                      tasks, done + Indices(order))
    decreases |order|
  {
    WaitingPending(state, start, command, blast, tasks, done, order);
    if |order| > 0 {
      var i := order[0];
      RunTaskStep(state, start, command, blast, tasks, done, i);
      PendingStep(state, command, blast, tasks, order);
      OrderTail(tasks, done, order);
      RunDescribes(RunTask(state, command, blast, tasks[i]), start, command, blast, tasks,
                   done + {i}, order[1..]);
      IndicesCons(order);
      assert done + {i} + Indices(order[1..]) == done + Indices(order);
    } else {
      assert done + Indices(order) == done;
    }
  }

  /** However the workers are scheduled, once all of them have finished
      every output holds what BLAST wrote for its shard, a shard is gone
      exactly when its worker succeeded, and no other file has changed. */
  lemma RunAllDescribed(start: Fs, command: seq<string>, blast: Blast, tasks: seq<Task>, order: seq<nat>)
    requires Separate(tasks) && IsOrder(order, |tasks|)
    requires forall j :: 0 <= j < |tasks| ==> tasks[j].query in start
    ensures Pending(start, tasks, order)
    ensures forall i :: 0 <= i < |tasks| ==> i in Indices(order)
    ensures Describes(RunInOrder(start, command, blast, tasks, order), start, command, blast,
                      tasks, Indices(order))
  {
    var none: set<nat> := {};
    RunDescribes(start, start, command, blast, tasks, none, order);
    assert none + Indices(order) == Indices(order);
  }

  /** The completion order does not matter: any two schedules of the same
      workers end in the same file-system state. */
  lemma CompletionOrderIrrelevant(start: Fs, command: seq<string>, blast: Blast, tasks: seq<Task>,
                                  o1: seq<nat>, o2: seq<nat>)
    requires Separate(tasks) && IsOrder(o1, |tasks|) && IsOrder(o2, |tasks|)
    requires forall j :: 0 <= j < |tasks| ==> tasks[j].query in start
    ensures Pending(start, tasks, o1) && Pending(start, tasks, o2)
    ensures RunInOrder(start, command, blast, tasks, o1) == RunInOrder(start, command, blast, tasks, o2)
  {
    RunAllDescribed(start, command, blast, tasks, o1);
    RunAllDescribed(start, command, blast, tasks, o2);
    DescribesUnique(RunInOrder(start, command, blast, tasks, o1),
                    RunInOrder(start, command, blast, tasks, o2),
                    start, command, blast, tasks, Indices(o1), Indices(o2));
  }

  /** The temporary names `make_file` hands out, in call order: unique,
      none of them an existing file, none of them the final output. */
  ghost predicate FreshNames(fs: Fs, supply: nat -> Path, output: Path)
  {
    && (forall a, b :: a != b ==> supply(a) != supply(b))
    && (forall a :: supply(a) !in fs && supply(a) != output)
  }

  /** Shard i and its output take the (2i)-th and (2i+1)-th names: the
      generator creates a shard file just before the loop creates that
      shard's output file. */
  function TasksFrom(supply: nat -> Path, m: nat): seq<Task>
  {
    seq(m, i requires 0 <= i => Task(supply(2 * i), supply(2 * i + 1)))
  }

  /** The output files, in shard order: the list handed to `combine`. */
  function Outputs(tasks: seq<Task>): (names: seq<Path>)
    ensures |names| == |tasks|
    ensures forall i :: 0 <= i < |tasks| ==> names[i] == tasks[i].output
  {
    seq(|tasks|, i requires 0 <= i < |tasks| => tasks[i].output)
  }

  lemma TasksSeparate(fs: Fs, supply: nat -> Path, output: Path, m: nat)
    requires FreshNames(fs, supply, output)
    ensures Separate(TasksFrom(supply, m))
    ensures Distinct(Outputs(TasksFrom(supply, m)))
    ensures output !in Outputs(TasksFrom(supply, m))
    ensures forall i :: 0 <= i < m ==> TasksFrom(supply, m)[i].query != output
  {
    var tasks := TasksFrom(supply, m);
    forall i, j | 0 <= i < m && 0 <= j < m
      ensures tasks[i].query != tasks[j].output
      ensures i != j ==> tasks[i].query != tasks[j].query && tasks[i].output != tasks[j].output
    {
      assert 2 * i != 2 * j + 1;
    }
    assert forall p :: p in Outputs(tasks) ==> p != output;
  }

  /** The for loop of the main script up to the first `start`: each shard
      written to its file, each output file created empty. */
  function Launch(fs: Fs, shards: seq<seq<byte>>, tasks: seq<Task>): Fs
    requires |tasks| == |shards|
    decreases |shards|
  {
    if |shards| == 0 then fs
    else Launch(fs[tasks[0].query := shards[0]][tasks[0].output := []], shards[1..], tasks[1..])
  }

  lemma SeparateTail(tasks: seq<Task>)
    requires Separate(tasks) && |tasks| > 0
    ensures Separate(tasks[1..])
    ensures tasks[0].query !in Names(tasks[1..]) && tasks[0].output !in Names(tasks[1..])
  {
    var rest := tasks[1..];
    forall i, j | 0 <= i < |rest| && 0 <= j < |rest|
      ensures rest[i].query != rest[j].output
      ensures i != j ==> rest[i].query != rest[j].query && rest[i].output != rest[j].output
    {
      assert rest[i] == tasks[i + 1] && rest[j] == tasks[j + 1];
    }
    forall p | p in Names(rest)
      ensures p != tasks[0].query && p != tasks[0].output
    {
      var i := NameOf(rest, p);
      assert rest[i] == tasks[i + 1];
    }
  }

  lemma NamesTail(tasks: seq<Task>)
    requires |tasks| > 0
    ensures Names(tasks[1..]) <= Names(tasks)
  {
    forall t | t in tasks[1..]
      ensures t in tasks
    {
    }
  }

  /** After launching, each shard file holds its shard, each output file is
      empty, and no other file has changed. */
  lemma {:induction false} LaunchEntries(fs: Fs, shards: seq<seq<byte>>, tasks: seq<Task>)
    requires |tasks| == |shards| && Separate(tasks)
    ensures forall i :: 0 <= i < |tasks| ==>
              && tasks[i].query in Launch(fs, shards, tasks)
              && Launch(fs, shards, tasks)[tasks[i].query] == shards[i]
    ensures forall i :: 0 <= i < |tasks| ==>
              && tasks[i].output in Launch(fs, shards, tasks)
              && Launch(fs, shards, tasks)[tasks[i].output] == []
    ensures forall p :: p !in Names(tasks) ==> SameEntry(Launch(fs, shards, tasks), fs, p)
    decreases |shards|
  {
    if |shards| > 0 {
      var t := tasks[0];
      var next := fs[t.query := shards[0]][t.output := []];
      var rest := Launch(next, shards[1..], tasks[1..]);
      assert rest == Launch(fs, shards, tasks);
      SeparateTail(tasks);
      LaunchEntries(next, shards[1..], tasks[1..]);
      assert t.query != t.output;
      assert SameEntry(rest, next, t.query) && SameEntry(rest, next, t.output);
      forall i | 1 <= i < |tasks|
        ensures tasks[i] == tasks[1..][i - 1]
      {
      }
      forall p | p !in Names(tasks)
        ensures SameEntry(rest, fs, p)
      {
        InNames(tasks, 0);
        NamesTail(tasks);
        assert SameEntry(rest, next, p);
      }
    }
  }

  /** What BLAST wrote for each shard, in shard order. */
  function Searched(command: seq<string>, blast: Blast, shards: seq<seq<byte>>): seq<seq<byte>>
  {
    seq(|shards|, i requires 0 <= i < |shards| => blast(command, shards[i]).written)
  }

  /** A name some call of `make_file` handed out. */
  ghost predicate Temporary(supply: nat -> Path, p: Path)
  {
    exists a :: supply(a) == p
  }

  /** The file system once every worker has finished, in the given order,
      after one worker per shard was launched. */
  function Ran(fs: Fs, shards: seq<seq<byte>>, command: seq<string>, blast: Blast,
               supply: nat -> Path, order: seq<nat>, output: Path): Fs
    requires FreshNames(fs, supply, output) && IsOrder(order, |shards|)
  {
    var tasks := TasksFrom(supply, |shards|);
    TasksSeparate(fs, supply, output, |shards|);
    LaunchEntries(fs, shards, tasks);
    var launched := Launch(fs, shards, tasks);
    RunAllDescribed(launched, command, blast, tasks, order);
    RunInOrder(launched, command, blast, tasks, order)
  }

  /** Everything after `split_fasta` has produced the shards: launch one
      worker per shard, let them finish in the given order, and combine the
      outputs into the output file. */
  function Pipeline(fs: Fs, shards: seq<seq<byte>>, command: seq<string>, blast: Blast,
                    supply: nat -> Path, order: seq<nat>, output: Path): Result<Fs, CombineError>
    requires FreshNames(fs, supply, output) && IsOrder(order, |shards|)
  {
    TasksSeparate(fs, supply, output, |shards|);
    Merge(Ran(fs, shards, command, blast, supply, order, output), Outputs(TasksFrom(supply, |shards|)), output)
  }

  lemma {:induction false} ContentsAt(fs: Fs, names: seq<Path>)
    requires forall i :: 0 <= i < |names| ==> names[i] in fs
    ensures |Contents(fs, names)| == |names|
    ensures forall i :: 0 <= i < |names| ==> Contents(fs, names)[i] == fs[names[i]]
    decreases |names|
  {
    if |names| > 0 {
      ContentsAt(fs, names[1..]);
    }
  }

  /** The outputs the workers left are what BLAST wrote for each shard. */
  lemma OutputsSearched(ran: Fs, launched: Fs, command: seq<string>, blast: Blast,
                        tasks: seq<Task>, shards: seq<seq<byte>>, done: set<nat>)
    requires |tasks| == |shards|
    requires forall i :: 0 <= i < |tasks| ==> tasks[i].query in launched && launched[tasks[i].query] == shards[i]
    requires forall i :: 0 <= i < |tasks| ==> i in done
    requires Describes(ran, launched, command, blast, tasks, done)
    ensures forall i :: 0 <= i < |tasks| ==> Outputs(tasks)[i] in ran
    ensures Contents(ran, Outputs(tasks)) == Searched(command, blast, shards)
  {
    assert forall i :: 0 <= i < |tasks| ==> Finished(ran, launched, command, blast, tasks[i]);
    ContentsAt(ran, Outputs(tasks));
  }

  lemma RanDescribed(fs: Fs, shards: seq<seq<byte>>, command: seq<string>, blast: Blast,
                     supply: nat -> Path, order: seq<nat>, output: Path)
    requires FreshNames(fs, supply, output) && IsOrder(order, |shards|)
    ensures var tasks := TasksFrom(supply, |shards|);
            var launched := Launch(fs, shards, tasks);
            && Separate(tasks)
            && (forall i :: 0 <= i < |tasks| ==> tasks[i].query in launched && launched[tasks[i].query] == shards[i])
            && (forall p :: p !in Names(tasks) ==> SameEntry(launched, fs, p))
            && (forall i :: 0 <= i < |tasks| ==> i in Indices(order))
            && Describes(Ran(fs, shards, command, blast, supply, order, output), launched, command, blast,
                         tasks, Indices(order))
  {
    var tasks := TasksFrom(supply, |shards|);
    TasksSeparate(fs, supply, output, |shards|);
    LaunchEntries(fs, shards, tasks);
    RunAllDescribed(Launch(fs, shards, tasks), command, blast, tasks, order);
  }

  /** `combine` succeeds on the finished workers' outputs, and its result in
      closed form. */
  lemma PipelineMerged(fs: Fs, shards: seq<seq<byte>>, command: seq<string>, blast: Blast,
                       supply: nat -> Path, order: seq<nat>, output: Path)
    requires FreshNames(fs, supply, output) && IsOrder(order, |shards|)
    ensures Pipeline(fs, shards, command, blast, supply, order, output).Success?
    ensures Pipeline(fs, shards, command, blast, supply, order, output).value
         == (Ran(fs, shards, command, blast, supply, order, output)
              - set p | p in Outputs(TasksFrom(supply, |shards|)))
            [output := Header() + Flatten(Searched(command, blast, shards))]
  {
    var tasks := TasksFrom(supply, |shards|);
    var ran := Ran(fs, shards, command, blast, supply, order, output);
    RanDescribed(fs, shards, command, blast, supply, order, output);
    TasksSeparate(fs, supply, output, |shards|);
    OutputsSearched(ran, Launch(fs, shards, tasks), command, blast, tasks, shards, Indices(order));
    MergeClosedForm(ran, Outputs(tasks), output);
  }

  /** Tasks named from the supply, as `TasksFrom` names them. */
  ghost predicate NamedFrom(tasks: seq<Task>, supply: nat -> Path)
  {
    forall i :: 0 <= i < |tasks| ==> tasks[i].query == supply(2 * i) && tasks[i].output == supply(2 * i + 1)
  }

  lemma NamesTemporary(tasks: seq<Task>, supply: nat -> Path)
    requires NamedFrom(tasks, supply)
    ensures forall p :: p in Names(tasks) ==> Temporary(supply, p)
  {
    forall p | p in Names(tasks)
      ensures Temporary(supply, p)
    {
      var i := NameOf(tasks, p);
      assert supply(2 * i) == tasks[i].query && supply(2 * i + 1) == tasks[i].output;
    }
  }

  /** The shard and output files in the result of `combine`. */
  lemma TaskEntries(launched: Fs, ran: Fs, command: seq<string>, blast: Blast, tasks: seq<Task>,
                    shards: seq<seq<byte>>, done: set<nat>, supply: nat -> Path, output: Path,
                    body: seq<byte>, r: Fs)
    requires |tasks| == |shards| && Separate(tasks) && NamedFrom(tasks, supply)
    requires forall i :: 0 <= i < |tasks| ==> tasks[i].query in launched && launched[tasks[i].query] == shards[i]
    requires forall i :: 0 <= i < |tasks| ==> i in done
    requires Describes(ran, launched, command, blast, tasks, done)
    requires forall a :: supply(a) != output
    requires r == (ran - set p | p in Outputs(tasks))[output := body]
    ensures forall i :: 0 <= i < |shards| ==> supply(2 * i + 1) !in r
    ensures forall i :: 0 <= i < |shards| ==>
              (supply(2 * i) in r <==> !blast(command, shards[i]).ok)
              && (supply(2 * i) in r ==> r[supply(2 * i)] == shards[i])
  {
    var outs := Outputs(tasks);
    forall i | 0 <= i < |shards|
      ensures supply(2 * i + 1) !in r
      ensures supply(2 * i) in r <==> !blast(command, shards[i]).ok
      ensures supply(2 * i) in r ==> r[supply(2 * i)] == shards[i]
    {
      assert outs[i] == supply(2 * i + 1) && outs[i] in outs;
      assert Finished(ran, launched, command, blast, tasks[i]);
      assert supply(2 * i) !in outs;
    }
  }

  /** Every other file in the result of `combine`. */
  lemma OtherEntries(fs: Fs, launched: Fs, ran: Fs, command: seq<string>, blast: Blast, tasks: seq<Task>,
                     done: set<nat>, supply: nat -> Path, output: Path, body: seq<byte>, r: Fs)
    requires NamedFrom(tasks, supply)
    requires forall i :: 0 <= i < |tasks| ==> tasks[i].query in launched
    requires forall p :: p !in Names(tasks) ==> SameEntry(launched, fs, p)
    requires Describes(ran, launched, command, blast, tasks, done)
    requires r == (ran - set p | p in Outputs(tasks))[output := body]
    ensures forall p :: p != output && !Temporary(supply, p) ==> SameEntry(r, fs, p)
  {
    NamesTemporary(tasks, supply);
    forall p | p != output && !Temporary(supply, p)
      ensures SameEntry(r, fs, p)
    {
      assert p !in Outputs(tasks);
      assert SameEntry(ran, launched, p);
    }
  }

  /** The entries of the result besides the output file. */
  lemma PipelineEntries(fs: Fs, shards: seq<seq<byte>>, command: seq<string>, blast: Blast,
                        supply: nat -> Path, order: seq<nat>, output: Path, body: seq<byte>, r: Fs)
    requires FreshNames(fs, supply, output) && IsOrder(order, |shards|)
    requires r == (Ran(fs, shards, command, blast, supply, order, output)
                   - set p | p in Outputs(TasksFrom(supply, |shards|)))[output := body]
    ensures forall i :: 0 <= i < |shards| ==> supply(2 * i + 1) !in r
    ensures forall i :: 0 <= i < |shards| ==>
              (supply(2 * i) in r <==> !blast(command, shards[i]).ok)
              && (supply(2 * i) in r ==> r[supply(2 * i)] == shards[i])
    ensures forall p :: p != output && !Temporary(supply, p) ==> SameEntry(r, fs, p)
  {
    var tasks := TasksFrom(supply, |shards|);
    var launched := Launch(fs, shards, tasks);
    var ran := Ran(fs, shards, command, blast, supply, order, output);
    RanDescribed(fs, shards, command, blast, supply, order, output);
    TaskEntries(launched, ran, command, blast, tasks, shards, Indices(order), supply, output, body, r);
    OtherEntries(fs, launched, ran, command, blast, tasks, Indices(order), supply, output, body, r);
  }

  /** A name handed out after the last task's is none of the tasks'. */
  lemma LaterNames(tasks: seq<Task>, supply: nat -> Path, a: nat)
    requires NamedFrom(tasks, supply) && (forall a, b :: a != b ==> supply(a) != supply(b))
    requires a >= 2 * |tasks|
    ensures supply(a) !in Names(tasks)
  {
    forall p | p in Names(tasks)
      ensures p != supply(a)
    {
      var i := NameOf(tasks, p);
      assert 2 * i < a && 2 * i + 1 < a;
    }
  }

  /** The names the run never handed out are still absent from the result
      of `combine`. */
  lemma UnusedAbsent(fs: Fs, shards: seq<seq<byte>>, command: seq<string>, blast: Blast,
                     supply: nat -> Path, order: seq<nat>, output: Path, body: seq<byte>, r: Fs)
    requires FreshNames(fs, supply, output) && IsOrder(order, |shards|)
    requires r == (Ran(fs, shards, command, blast, supply, order, output)
                   - set p | p in Outputs(TasksFrom(supply, |shards|)))[output := body]
    ensures forall a: nat :: a >= 2 * |shards| ==> supply(a) !in r
  {
    var tasks := TasksFrom(supply, |shards|);
    var launched := Launch(fs, shards, tasks);
    var ran := Ran(fs, shards, command, blast, supply, order, output);
    RanDescribed(fs, shards, command, blast, supply, order, output);
    forall a: nat | a >= 2 * |shards|
      ensures supply(a) !in r
    {
      LaterNames(tasks, supply, a);
      assert SameEntry(launched, fs, supply(a)) && SameEntry(ran, launched, supply(a));
    }
  }

  /** The pipeline after the split, for any shards and any completion order:
      `combine` never fails, the output file holds the header and then what
      BLAST wrote for each shard in shard order, every output file is gone,
      a shard file is left behind exactly when its worker failed, no name
      the generator did not hand out has appeared, and every file outside
      the generator's names is as it was. */
  lemma PipelineResult(fs: Fs, shards: seq<seq<byte>>, command: seq<string>, blast: Blast,
                       supply: nat -> Path, order: seq<nat>, output: Path)
    requires FreshNames(fs, supply, output) && IsOrder(order, |shards|)
    ensures Pipeline(fs, shards, command, blast, supply, order, output).Success?
    ensures var r := Pipeline(fs, shards, command, blast, supply, order, output).value;
            && output in r && r[output] == Header() + Flatten(Searched(command, blast, shards))
            && (forall i :: 0 <= i < |shards| ==> supply(2 * i + 1) !in r)
            && (forall i :: 0 <= i < |shards| ==>
                  (supply(2 * i) in r <==> !blast(command, shards[i]).ok)
                  && (supply(2 * i) in r ==> r[supply(2 * i)] == shards[i]))
            && (forall p :: p != output && !Temporary(supply, p) ==> SameEntry(r, fs, p))
            && (forall a: nat :: a >= 2 * |shards| ==> supply(a) !in r)
  {
    PipelineMerged(fs, shards, command, blast, supply, order, output);
    var r := Pipeline(fs, shards, command, blast, supply, order, output).value;
    var body := Header() + Flatten(Searched(command, blast, shards));
    PipelineEntries(fs, shards, command, blast, supply, order, output, body, r);
    UnusedAbsent(fs, shards, command, blast, supply, order, output, body, r);
  }

  /** With the shards fixed, the completion order does not change the
      result. */
  lemma PipelineOrderIrrelevant(fs: Fs, shards: seq<seq<byte>>, command: seq<string>, blast: Blast,
                                supply: nat -> Path, o1: seq<nat>, o2: seq<nat>, output: Path)
    requires FreshNames(fs, supply, output) && IsOrder(o1, |shards|) && IsOrder(o2, |shards|)
    ensures Pipeline(fs, shards, command, blast, supply, o1, output)
         == Pipeline(fs, shards, command, blast, supply, o2, output)
  {
    var tasks := TasksFrom(supply, |shards|);
    TasksSeparate(fs, supply, output, |shards|);
    LaunchEntries(fs, shards, tasks);
    CompletionOrderIrrelevant(Launch(fs, shards, tasks), command, blast, tasks, o1, o2);
    assert Ran(fs, shards, command, blast, supply, o1, output) == Ran(fs, shards, command, blast, supply, o2, output);
  }

  /** The error that ends the script: the query cannot be opened, the
      thread count is zero, or `combine` finds an output missing. */
  datatype JobError =
    | QueryMissing(path: Path)
    | SplitFailed(split: SplitFasta.SplitError)
    | CombineFailed(combine: CombineError)
    | CommandFailed(command: Commands.CommandError)

  /** The script from the split on, with a given command line: split the
      query file into `threads` shards, run the command on each in the order
      the schedule gives for that many workers, and combine the outputs. */
  function RunJob(fs: Fs, command: seq<string>, query: Path, threads: int, blast: Blast,
                  supply: nat -> Path, schedule: nat -> seq<nat>, output: Path): Result<Fs, JobError>
    requires FreshNames(fs, supply, output)
    requires forall m :: IsOrder(schedule(m), m)
  {
    if query !in fs then Failure(QueryMissing(query))
    else match SplitFasta.Split(fs[query], threads)
      case Failure(e) => Failure(SplitFailed(e))
      case Success(shards) =>
        match Pipeline(fs, shards, command, blast, supply, schedule(|shards|), output)
        case Failure(e) => Failure(CombineFailed(e))
        case Success(final) => Success(final)
  }

  /** The script from the command line on, with the corrected command. */
  function Job(fs: Fs, q: Commands.Params, query: Path, threads: int, blast: Blast,
               supply: nat -> Path, schedule: nat -> seq<nat>, output: Path): Result<Fs, JobError>
    requires FreshNames(fs, supply, output)
    requires forall m :: IsOrder(schedule(m), m)
  {
    RunJob(fs, Commands.IntendedCommand(q), query, threads, blast, supply, schedule, output)
  }

  /** The script as written: the command is built before the query file is
      opened, so a command that fails to build ends the run before any split. */
  function JobAsWritten(fs: Fs, q: Commands.Params, query: Path, threads: int, blast: Blast,
                        supply: nat -> Path, schedule: nat -> seq<nat>, output: Path): Result<Fs, JobError>
    requires FreshNames(fs, supply, output)
    requires forall m :: IsOrder(schedule(m), m)
  {
    match Commands.BuildCommand(q)
    case Failure(e) => Failure(CommandFailed(e))
    case Success(command) => RunJob(fs, command, query, threads, blast, supply, schedule, output)
  }

  /** The script fails exactly when the query file is missing or the thread
      count is zero; otherwise the output file holds the header followed by
      BLAST's output for each shard of the query, in shard order. */
  lemma JobOutcome(fs: Fs, q: Commands.Params, query: Path, threads: int, blast: Blast,
                   supply: nat -> Path, schedule: nat -> seq<nat>, output: Path)
    requires FreshNames(fs, supply, output)
    requires forall m :: IsOrder(schedule(m), m)
    ensures Job(fs, q, query, threads, blast, supply, schedule, output).Failure?
        <==> query !in fs || threads == 0
    ensures Job(fs, q, query, threads, blast, supply, schedule, output).Success? ==>
              var shards := SplitFasta.Split(fs[query], threads).value;
              var r := Job(fs, q, query, threads, blast, supply, schedule, output).value;
              output in r
              && r[output] == Header() + Flatten(Searched(Commands.IntendedCommand(q), blast, shards))
  {
    if query in fs && threads != 0 {
      var shards := SplitFasta.Split(fs[query], threads).value;
      PipelineResult(fs, shards, Commands.IntendedCommand(q), blast, supply, schedule(|shards|), output);
    }
  }

  /** Two schedules of the workers give the same result. */
  lemma JobOrderIrrelevant(fs: Fs, q: Commands.Params, query: Path, threads: int, blast: Blast,
                           supply: nat -> Path, s1: nat -> seq<nat>, s2: nat -> seq<nat>, output: Path)
    requires FreshNames(fs, supply, output)
    requires forall m :: IsOrder(s1(m), m)
    requires forall m :: IsOrder(s2(m), m)
    ensures Job(fs, q, query, threads, blast, supply, s1, output)
         == Job(fs, q, query, threads, blast, supply, s2, output)
  {
    if query in fs && threads != 0 {
      var shards := SplitFasta.Split(fs[query], threads).value;
      PipelineOrderIrrelevant(fs, shards, Commands.IntendedCommand(q), blast, supply,
                              s1(|shards|), s2(|shards|), output);
    }
  }

  /** With a search that writes back its query unchanged, the output file
      holds the header followed by the query file from its first record
      header on: splitting and combining lose no record and reorder none. */
  lemma JobEcho(fs: Fs, q: Commands.Params, query: Path, threads: int, blast: Blast,
                supply: nat -> Path, schedule: nat -> seq<nat>, output: Path)
    requires FreshNames(fs, supply, output)
    requires forall m :: IsOrder(schedule(m), m)
    requires query in fs && threads >= 1
    requires forall c, x :: blast(c, x).written == x
    ensures Job(fs, q, query, threads, blast, supply, schedule, output).Success?
    ensures var r := Job(fs, q, query, threads, blast, supply, schedule, output).value;
            var pos := Scan.Offsets(fs[query]);
            output in r && r[output] == Header() + fs[query][pos[0]..]
  {
    var data := fs[query];
    var shards := SplitFasta.Split(data, threads).value;
    var command := Commands.IntendedCommand(q);
    JobOutcome(fs, q, query, threads, blast, supply, schedule, output);
    assert Searched(command, blast, shards) == shards;
    SplitFasta.SplitRoundTrip(data, threads);
  }

  /** The script as written fails exactly for blastp and tblastn, whatever
      the query, and otherwise exactly when the corrected script fails; where
      it runs, it gives the corrected script's result. */
  lemma JobAsWrittenOutcome(fs: Fs, q: Commands.Params, query: Path, threads: int, blast: Blast,
                            supply: nat -> Path, schedule: nat -> seq<nat>, output: Path)
    requires FreshNames(fs, supply, output)
    requires forall m :: IsOrder(schedule(m), m)
    ensures JobAsWritten(fs, q, query, threads, blast, supply, schedule, output).Failure?
        <==> q.program == Commands.Blastp || q.program == Commands.Tblastn || query !in fs || threads == 0
    ensures q.program == Commands.Blastp || q.program == Commands.Tblastn ==>
              JobAsWritten(fs, q, query, threads, blast, supply, schedule, output)
              == Failure(CommandFailed(Commands.NotSubscriptable))
    ensures q.program != Commands.Blastp && q.program != Commands.Tblastn ==>
              JobAsWritten(fs, q, query, threads, blast, supply, schedule, output)
              == Job(fs, q, query, threads, blast, supply, schedule, output)
  {
    Commands.CommandFailsExactly(q);
    if Commands.BuildCommand(q).Success? {
      Commands.CommandAsIntended(q);
      JobOutcome(fs, q, query, threads, blast, supply, schedule, output);
    }
  }
}

=== FILE: results.dfy ===
/** Outcomes of the operations whose Python counterparts raise an exception. */
module Results {

  datatype Option<+T> = None | Some(value: T)

  /** Either a value or the error the Python code would raise instead. */
  datatype Result<+T, +E> = Success(value: T) | Failure(error: E)
}

=== FILE: scan.dfy ===
/** The first half of `split_fasta`: one pass over the file, line by line as
    `readline` delivers them, collecting the offset of every record header line
    and finally the file length as a sentinel. */
module Scan {
  import opened Bytes

  /** Offset p begins a line: it is the start of the file or follows a newline. */
  predicate LineStart(data: seq<byte>, p: nat)
    requires p <= |data|
  {
    p == 0 || data[p - 1] == Newline
  }

  /** Offset p is the first byte of a record: a line whose first byte is '>'.
      A '>' in the middle of a line is not a record start. */
  predicate RecordStart(data: seq<byte>, p: nat)
  {
    p < |data| && data[p] == Marker && LineStart(data, p)
  }

  /** Where the line that starts at p ends: just past the first newline at or
      after p, or at the end of the file when there is none. This is the file
      position after one `readline` call made at position p. */
  function LineEnd(data: seq<byte>, p: nat): (q: nat)
    requires p < |data|
    ensures p < q <= |data|
    ensures q == |data| || data[q - 1] == Newline
    ensures forall k :: p <= k < q - 1 ==> data[k] != Newline
    decreases |data| - p
  {
    if data[p] == Newline || p + 1 == |data| then p + 1 else LineEnd(data, p + 1)
  }

  /** The scan loop from position p to the end of the file: each non-empty line
      that starts with '>' contributes its start offset; the empty read at the
      end of the file contributes the file length. */
  function ScanFrom(data: seq<byte>, p: nat): (pos: seq<nat>)
    requires p <= |data|
    requires p == |data| || LineStart(data, p)
    ensures |pos| >= 1 && pos[|pos| - 1] == |data|
    ensures forall i :: 0 <= i < |pos| ==> p <= pos[i] <= |data|
    ensures Increasing(pos)
    ensures forall i :: 0 <= i < |pos| - 1 ==> RecordStart(data, pos[i])
    ensures forall k :: p <= k && RecordStart(data, k) ==> k in pos
    decreases |data| - p
  {
    if p == |data| then [|data|]
    else
      var rest := ScanFrom(data, LineEnd(data, p));
      ScanCons(data, p, rest);
      (if data[p] == Marker then [p] else []) + rest
  }

  /** One step of the scan: the offsets found from the end of the line at p
      on, preceded by p when that line is a header, are the offsets found
      from p on. No line starts strictly inside the line at p. */
  lemma ScanCons(data: seq<byte>, p: nat, rest: seq<nat>)
    requires p < |data| && LineStart(data, p)
    requires |rest| >= 1 && rest[|rest| - 1] == |data|
    requires forall i :: 0 <= i < |rest| ==> LineEnd(data, p) <= rest[i] <= |data|
    requires Increasing(rest)
    requires forall i :: 0 <= i < |rest| - 1 ==> RecordStart(data, rest[i])
    requires forall k :: LineEnd(data, p) <= k && RecordStart(data, k) ==> k in rest
    ensures var pos := (if data[p] == Marker then [p] else []) + rest;
            && |pos| >= 1 && pos[|pos| - 1] == |data|
            && (forall i :: 0 <= i < |pos| ==> p <= pos[i] <= |data|)
            && Increasing(pos)
            && (forall i :: 0 <= i < |pos| - 1 ==> RecordStart(data, pos[i]))
            && (forall k :: p <= k && RecordStart(data, k) ==> k in pos)
  {
    var q := LineEnd(data, p);
    var pos := (if data[p] == Marker then [p] else []) + rest;
    forall k | p <= k && RecordStart(data, k)
      ensures k in pos
    {
      if k == p {
        assert pos[0] == p;
      } else {
        assert data[k - 1] == Newline;
        assert k in rest;
      }
    }
  }

  /** The boundary offset list of the whole file. */
  function Offsets(data: seq<byte>): (pos: seq<nat>)
    ensures |pos| >= 1 && pos[|pos| - 1] == |data|
    ensures Increasing(pos)
    ensures forall x :: x in pos <==> x == |data| || RecordStart(data, x)
  {
    var pos := ScanFrom(data, 0);
    assert forall x :: x in pos && x != |data| ==> RecordStart(data, x) by {
      forall x | x in pos && x != |data|
        ensures RecordStart(data, x)
      {
        var i :| 0 <= i < |pos| && pos[i] == x;
      }
    }
    pos
  }

  /** The number of records in a file: the offset list minus its sentinel. */
  function RecordCount(data: seq<byte>): nat
  {
    |Offsets(data)| - 1
  }

  /** The first offset is the first record start, or the end of the file when
      there is none: no record header lies before it. */
  lemma FirstOffset(data: seq<byte>)
    ensures var pos := Offsets(data);
            && (forall k :: 0 <= k < pos[0] ==> !RecordStart(data, k))
            && (pos[0] == |data| || RecordStart(data, pos[0]))
  {
    var pos := Offsets(data);
    assert pos[0] in pos;
    assert forall x :: x in pos ==> pos[0] <= x;
  }

  /** Inside a slice that starts at a line start, record starts are those of
      the whole file, shifted. */
  lemma SliceRecordStart(data: seq<byte>, a: nat, b: nat, x: nat)
    requires a < b <= |data| && LineStart(data, a) && x < b - a
    ensures RecordStart(data[a..b], x) <==> RecordStart(data, a + x)
  {
  }

  /** What makes an offset list the boundary list of a file: increasing,
      ending at the end of the file, and holding exactly the record starts. */
  ghost predicate Boundaries(data: seq<byte>, pos: seq<nat>)
  {
    && |pos| >= 1 && pos[|pos| - 1] == |data| && Increasing(pos)
    && forall x :: x in pos <==> x == |data| || RecordStart(data, x)
  }

  /** Offsets i .. j of an increasing list, each less offset i. */
  function Shifted(pos: seq<nat>, i: nat, j: nat): seq<nat>
    requires i <= j < |pos| && Increasing(pos)
  {
    seq(j - i + 1, t requires 0 <= t <= j - i => pos[i + t] - pos[i])
  }

  lemma SliceOffsetWithin(data: seq<byte>, pos: seq<nat>, i: nat, j: nat, x: nat)
    requires Boundaries(data, pos) && i < j < |pos|
    requires x == pos[j] - pos[i] || (x < pos[j] - pos[i] && RecordStart(data[pos[i]..pos[j]], x))
    ensures x in Shifted(pos, i, j)
  {
    var sh := Shifted(pos, i, j);
    var a, b := pos[i], pos[j];
    if x == b - a {
      assert sh[j - i] == x;
    } else {
      assert a in pos;
      SliceRecordStart(data, a, b, x);
      assert a + x in pos;
      var m :| 0 <= m < |pos| && pos[m] == a + x;
      assert i <= m < j;
      assert sh[m - i] == x;
    }
  }

  lemma SliceOffsetCovered(data: seq<byte>, pos: seq<nat>, i: nat, j: nat, t: nat)
    requires Boundaries(data, pos) && i < j < |pos| && t <= j - i
    ensures var x := Shifted(pos, i, j)[t];
            x == pos[j] - pos[i] || (x < pos[j] - pos[i] && RecordStart(data[pos[i]..pos[j]], x))
  {
    var a, b := pos[i], pos[j];
    if t < j - i {
      assert a in pos && pos[i + t] in pos;
      assert a <= pos[i + t] < b;
      SliceRecordStart(data, a, b, pos[i + t] - a);
    }
  }

  /** The run of offsets i .. j, shifted, is a boundary list of the slice
      between offsets i and j. */
  lemma SliceBoundaries(data: seq<byte>, pos: seq<nat>, i: nat, j: nat)
    requires Boundaries(data, pos) && i < j < |pos|
    ensures pos[i] <= pos[j] <= |data|
    ensures Boundaries(data[pos[i]..pos[j]], Shifted(pos, i, j))
  {
    var sl := data[pos[i]..pos[j]];
    var sh := Shifted(pos, i, j);
    forall x
      ensures x in sh <==> x == |sl| || RecordStart(sl, x)
    {
      if x == |sl| || RecordStart(sl, x) {
        SliceOffsetWithin(data, pos, i, j, x);
      }
      if x in sh {
        var t :| 0 <= t < |sh| && sh[t] == x;
        SliceOffsetCovered(data, pos, i, j, t);
      }
    }
  }

  /** A run of records cut out of a file parses on its own to exactly those
      records: its offset list is the file's offsets i .. j, shifted to start
      at zero. So a shard is an independently valid file of the same format. */
  lemma SliceOffsets(data: seq<byte>, i: nat, j: nat)
    requires i < j < |Offsets(data)|
    ensures var pos := Offsets(data);
            Offsets(data[pos[i]..pos[j]])
              == seq(j - i + 1, t requires 0 <= t <= j - i => pos[i + t] - pos[i])
    ensures RecordCount(data[Offsets(data)[i]..Offsets(data)[j]]) == j - i
  {
    var pos := Offsets(data);
    SliceBoundaries(data, pos, i, j);
    var sl := data[pos[i]..pos[j]];
    var got := Offsets(sl);
    var sh := Shifted(pos, i, j);
    assert forall x :: x in got <==> x in sh;
    IncreasingUnique(got, sh);
  }
}

=== FILE: splitfasta.dfy ===
/** `split_fasta`: the boundary offset list of the file, cut into shards of
    `step` records each. */
module SplitFasta {
  import opened Bytes
  import opened Results
  import Scan
  import opened Windowing

  /** The error `split_fasta` raises: dividing by a thread count of zero. */
  datatype SplitError = ZeroDivision

  /** The bytes of each window, in order. */
  function Cut(data: seq<byte>, pos: seq<nat>, ws: seq<Window>): (shards: seq<seq<byte>>)
    requires |pos| >= 1 && pos[|pos| - 1] == |data| && Increasing(pos)
    requires forall k :: 0 <= k < |ws| ==> ws[k].first < ws[k].last < |pos|
    ensures |shards| == |ws|
  {
    assert forall k :: 0 <= k < |ws| ==> pos[ws[k].first] <= pos[ws[k].last] <= |data|;
    seq(|ws|, k requires 0 <= k < |ws| => data[pos[ws[k].first]..pos[ws[k].last]])
  }

  /** `split_fasta(input, n)`, with the lazy generator collected into the
      finite list of shard contents it yields. */
  function Split(data: seq<byte>, n: int): (r: Result<seq<seq<byte>>, SplitError>)
    ensures r.Failure? <==> n == 0
  {
    if n == 0 then Failure(ZeroDivision)
    else
      var r := Scan.RecordCount(data);
      Success(Cut(data, Scan.Offsets(data), Windows(r, Step(r, n))))
  }

  /** The shard count for n >= 1 threads and r records: ceil(r / step)
      shards, none when there is no record, never more than n and never more
      than r. */
  lemma SplitCount(data: seq<byte>, n: int)
    requires n >= 1
    ensures var r := Scan.RecordCount(data);
            var m := |Split(data, n).value|;
            && (r == 0 <==> m == 0)
            && (r > 0 ==> Step(r, n) >= 1 && (m - 1) * Step(r, n) < r <= m * Step(r, n))
            && m <= n
            && m <= r
  {
    StepCount(Scan.RecordCount(data), n);
  }

  /** Shard k is exactly the bytes of its window: from the start of its first
      record to the start of the record after its last one (or the end of
      the file), for a thread count of either sign. */
  lemma ShardBytes(data: seq<byte>, n: int, k: nat)
    requires n != 0 && k < |Split(data, n).value|
    ensures var r := Scan.RecordCount(data);
            var w := Windows(r, Step(r, n))[k];
            var pos := Scan.Offsets(data);
            && w.first < w.last <= r
            && Split(data, n).value[k] == data[pos[w.first]..pos[w.last]]
  {
  }

  /** For n >= 1, shard k in closed form: the bytes from the start of record
      k * step to the start of record min((k + 1) * step, r), or to the end of
      the file when that is r. */
  lemma ShardRange(data: seq<byte>, n: int, k: nat)
    requires n >= 1 && k < |Split(data, n).value|
    ensures var r := Scan.RecordCount(data);
            var step := Step(r, n);
            var pos := Scan.Offsets(data);
            && 0 <= k * step < Min((k + 1) * step, r) <= r
            && Split(data, n).value[k] == data[pos[k * step]..pos[Min((k + 1) * step, r)]]
  {
    ShardBytes(data, n, k);
    WindowShape(Scan.RecordCount(data), n, k);
  }

  /** Each part is the bytes of the file between the matching pair of bounds. */
  ghost predicate SlicesAt(data: seq<byte>, bounds: seq<(nat, nat)>, parts: seq<seq<byte>>)
  {
    && |bounds| == |parts|
    && forall k :: 0 <= k < |bounds| ==>
         bounds[k].0 <= bounds[k].1 <= |data| && parts[k] == data[bounds[k].0..bounds[k].1]
  }

  /** The bytes of each window are the bytes between the window's bounds. */
  lemma CutIsBounds(data: seq<byte>, pos: seq<nat>, ws: seq<Window>)
    requires |pos| >= 1 && pos[|pos| - 1] == |data| && Increasing(pos)
    requires forall k :: 0 <= k < |ws| ==> ws[k].first < ws[k].last < |pos|
    ensures SlicesAt(data, Bounds(pos, ws), Cut(data, pos, ws))
  {
    BoundsLength(pos, ws);
    forall k | 0 <= k < |ws|
      ensures Bounds(pos, ws)[k].0 <= Bounds(pos, ws)[k].1 <= |data|
      ensures Cut(data, pos, ws)[k] == data[Bounds(pos, ws)[k].0..Bounds(pos, ws)[k].1]
    {
      BoundsAt(pos, ws, k);
      assert pos[ws[k].first] < pos[ws[k].last];
    }
  }

  /** For any boundary list and any step, the byte ranges the generator loop
      yields as written cut out exactly the shards of the closed-form windows. */
  lemma LoopSlices(data: seq<byte>, pos: seq<nat>, step: int, parts: seq<seq<byte>>)
    requires |pos| >= 1 && pos[|pos| - 1] == |data| && Increasing(pos)
    requires parts == Cut(data, pos, Windows(|pos| - 1, step))
    ensures SlicesAt(data, GeneratorLoop(pos, 0, step), parts)
  {
    GeneratorLoopAgrees(pos, step);
    CutIsBounds(data, pos, Windows(|pos| - 1, step));
  }

  /** The shards are the byte ranges the generator loop of `split_fasta`
      yields as written, with Python's slicing of the offset list. */
  lemma SplitIsGeneratorLoop(data: seq<byte>, n: int)
    requires n != 0
    ensures SlicesAt(data, GeneratorLoop(Scan.Offsets(data), 0, Step(Scan.RecordCount(data), n)),
                     Split(data, n).value)
  {
    OffsetsShape(data);
    SplitIsCut(data, n);
    LoopSlices(data, Scan.Offsets(data), Step(Scan.RecordCount(data), n), Split(data, n).value);
  }

  /** The offset list is a boundary list for the generator loop: non-empty,
      increasing, and ending at the file length. */
  lemma OffsetsShape(data: seq<byte>)
    ensures |Scan.Offsets(data)| >= 1 && Scan.Offsets(data)[|Scan.Offsets(data)| - 1] == |data|
    ensures Increasing(Scan.Offsets(data))
  {
  }

  /** The shards are the cut of the offset list by the windows of its records. */
  lemma SplitIsCut(data: seq<byte>, n: int)
    requires n != 0
    ensures Split(data, n).value
         == Cut(data, Scan.Offsets(data), Windows(|Scan.Offsets(data)| - 1, Step(Scan.RecordCount(data), n)))
  {
  }

  /** No shard cuts a record: each is non-empty, begins with the '>' of a
      record header line, and ends where another record begins or where the
      file ends. */
  lemma ShardsRecordAligned(data: seq<byte>, n: int, k: nat)
    requires n != 0 && k < |Split(data, n).value|
    ensures var r := Scan.RecordCount(data);
            var w := Windows(r, Step(r, n))[k];
            var pos := Scan.Offsets(data);
            var shard := Split(data, n).value[k];
            && |shard| > 0 && shard[0] == Marker
            && Scan.RecordStart(data, pos[w.first])
            && (pos[w.last] == |data| || Scan.RecordStart(data, pos[w.last]))
  {
    ShardBytes(data, n, k);
    var r := Scan.RecordCount(data);
    var w := Windows(r, Step(r, n))[k];
    var pos := Scan.Offsets(data);
    assert pos[w.first] < pos[w.last];
    assert pos[w.first] in pos && pos[w.last] in pos;
  }

  /** Each shard, read as a file of its own, holds exactly the records of its
      window: its offset list is the window's run of the file's offsets,
      shifted to start at zero. */
  lemma ShardRecords(data: seq<byte>, n: int, k: nat)
    requires n != 0 && k < |Split(data, n).value|
    ensures var r := Scan.RecordCount(data);
            var w := Windows(r, Step(r, n))[k];
            var pos := Scan.Offsets(data);
            && Scan.Offsets(Split(data, n).value[k])
               == seq(w.last - w.first + 1, t requires 0 <= t <= w.last - w.first => pos[w.first + t] - pos[w.first])
            && Scan.RecordCount(Split(data, n).value[k]) == w.last - w.first
  {
    ShardBytes(data, n, k);
    var r := Scan.RecordCount(data);
    var w := Windows(r, Step(r, n))[k];
    Scan.SliceOffsets(data, w.first, w.last);
  }

  lemma CutCons(data: seq<byte>, pos: seq<nat>, w: Window, ws: seq<Window>)
    requires |pos| >= 1 && pos[|pos| - 1] == |data| && Increasing(pos)
    requires w.first < w.last < |pos|
    requires forall k :: 0 <= k < |ws| ==> ws[k].first < ws[k].last < |pos|
    ensures Flatten(Cut(data, pos, [w] + ws))
         == data[pos[w.first]..pos[w.last]] + Flatten(Cut(data, pos, ws))
  {
    var all := Cut(data, pos, [w] + ws);
    assert all[1..] == Cut(data, pos, ws);
  }

  /** The shards of the windows from record i on, concatenated, run from the
      start of record i to the end of the file. */
  ghost predicate JoinsFrom(data: seq<byte>, pos: seq<nat>, i: nat, step: nat)
    requires |pos| >= 1 && pos[|pos| - 1] == |data| && Increasing(pos)
    requires step >= 1 && i < |pos| - 1
  {
    Flatten(Cut(data, pos, Strides(|pos| - 1, i, step))) == data[pos[i]..]
  }

  lemma StridesCutCons(data: seq<byte>, pos: seq<nat>, i: nat, step: nat)
    requires |pos| >= 1 && pos[|pos| - 1] == |data| && Increasing(pos)
    requires step >= 1 && i + step < |pos| - 1
    ensures pos[i] <= pos[i + step] <= |data|
    ensures Flatten(Cut(data, pos, Strides(|pos| - 1, i, step)))
         == data[pos[i]..pos[i + step]] + Flatten(Cut(data, pos, Strides(|pos| - 1, i + step, step)))
  {
    var r := |pos| - 1;
    var rest := Strides(r, i + step, step);
    assert Strides(r, i, step) == [Window(i, i + step)] + rest;
    CutCons(data, pos, Window(i, i + step), rest);
  }

  lemma SliceJoin<T>(s: seq<T>, a: nat, b: nat)
    requires a <= b <= |s|
    ensures s[a..b] + s[b..] == s[a..]
  {
  }

  lemma JoinStep(data: seq<byte>, pos: seq<nat>, i: nat, step: nat)
    requires |pos| >= 1 && pos[|pos| - 1] == |data| && Increasing(pos)
    requires step >= 1 && i + step < |pos| - 1
    requires JoinsFrom(data, pos, i + step, step)
    ensures JoinsFrom(data, pos, i, step)
  {
    StridesCutCons(data, pos, i, step);
    SliceJoin(data, pos[i], pos[i + step]);
  }

  lemma JoinLast(data: seq<byte>, pos: seq<nat>, i: nat, step: nat)
    requires |pos| >= 1 && pos[|pos| - 1] == |data| && Increasing(pos)
    requires step >= 1 && i < |pos| - 1 <= i + step
    ensures JoinsFrom(data, pos, i, step)
  {
    var r := |pos| - 1;
    assert Strides(r, i + step, step) == [];
    assert Strides(r, i, step) == [Window(i, r)];
    CutCons(data, pos, Window(i, r), []);
  }

  /** For any boundary list and positive step, the shards of the windows
      from record i on, concatenated in order, are the bytes from the start
      of record i to the end of the file. */
  lemma {:induction false} StridesJoin(data: seq<byte>, pos: seq<nat>, i: nat, step: nat)
    requires |pos| >= 1 && pos[|pos| - 1] == |data| && Increasing(pos)
    requires step >= 1 && i < |pos| - 1
    ensures JoinsFrom(data, pos, i, step)
    decreases |pos| - i
  {
    if i + step < |pos| - 1 {
      StridesJoin(data, pos, i + step, step);
      JoinStep(data, pos, i, step);
    } else {
      JoinLast(data, pos, i, step);
    }
  }

  /** Concatenating the shards in the order they are yielded gives back the
      file from its first record header to its end; only the bytes before the
      first record, which hold no record header, are dropped. */
  lemma SplitRoundTrip(data: seq<byte>, n: int)
    requires n >= 1
    ensures var pos := Scan.Offsets(data);
            && Flatten(Split(data, n).value) == data[pos[0]..]
            && (forall k :: 0 <= k < pos[0] ==> !Scan.RecordStart(data, k))
            && (pos[0] == |data| || Scan.RecordStart(data, pos[0]))
  {
    var r := Scan.RecordCount(data);
    if r > 0 {
      CeilDivPositive(r, n);
      StridesJoin(data, Scan.Offsets(data), 0, Step(r, n));
    }
    Scan.FirstOffset(data);
  }

  /** A file without any record header line: the step is 0, the first slice
      of the offset list holds only the sentinel, and no shard comes out,
      without error, for any non-zero thread count. */
  lemma NoRecordsNoShards(data: seq<byte>, n: int)
    requires n != 0
    requires forall k :: 0 <= k < |data| ==> !Scan.RecordStart(data, k)
    ensures Scan.Offsets(data) == [|data|]
    ensures Step(Scan.RecordCount(data), n) == 0
    ensures |PySlice(Scan.Offsets(data), 0, 1)| == 1
    ensures Split(data, n) == Success([])
  {
    var pos := Scan.Offsets(data);
    assert forall x :: x in pos ==> x == |data|;
    assert pos[0] in pos;
    assert |pos| == 1;
  }

  /** A negative thread count never reproduces the records: with at least one
      record it yields at most one shard, and the shards fall short of the
      record-bearing bytes of the file. */
  lemma NegativeThreadsLoseRecords(data: seq<byte>, n: int)
    requires n < 0 && Scan.RecordCount(data) > 0
    ensures |Split(data, n).value| <= 1
    ensures Flatten(Split(data, n).value) != data[Scan.Offsets(data)[0]..]
  {
    var r := Scan.RecordCount(data);
    var pos := Scan.Offsets(data);
    var shards := Split(data, n).value;
    NegativeWindows(r, n);
    assert pos[0] < pos[r];
    if |shards| == 1 {
      ShardBytes(data, n, 0);
      var w := Windows(r, Step(r, n))[0];
      assert pos[w.last] < pos[r];
      FlattenFrom(shards, 0);
      assert shards[1..] == [];
      assert |Flatten(shards)| == pos[w.last] - pos[w.first];
    } else {
      assert shards == [];
    }
  }
}

=== FILE: windowing.dfy ===
/** The windowing arithmetic of `split_fasta`: how many records go into each
    shard, and which runs of the boundary offset list the generator loop
    visits, both as the loop is written and in closed form. */
module Windowing {
  import opened Bytes

  /** `math.ceil(a / b)` for a record count a and a non-zero thread count b,
      computed exactly with integer division. */
  function CeilDiv(a: nat, b: int): int
    requires b != 0
  {
    if b > 0 then (a + b - 1) / b else -(a / -b)
  }

  /** CeilDiv is the ceiling of the exact quotient: the least q with
      a <= q * b when b > 0, and the least q with q * b <= a when b < 0. */
  lemma CeilDivIsCeiling(a: nat, b: int)
    requires b != 0
    ensures var q := CeilDiv(a, b);
            && (b > 0 ==> (q - 1) * b < a <= q * b)
            && (b < 0 ==> q * b <= a < (q - 1) * b)
  {
  }

  /** One shard as two indices into the offset list: it holds records
      first .. last - 1, that is, the bytes [pos[first], pos[last]). */
  datatype Window = Window(first: nat, last: nat)

  /** The windows the generator visits for a positive step over r records,
      starting at record i: one window per stride while records remain. */
  function Strides(r: nat, i: nat, step: nat): (ws: seq<Window>)
    requires step >= 1
    ensures |ws| > 0 <==> i < r
    ensures |ws| > 0 ==> ws[0].first == i && ws[|ws| - 1].last == r
    ensures forall k :: 0 <= k < |ws| ==>
              i <= ws[k].first < ws[k].last <= r && ws[k].last == Min(ws[k].first + step, r)
    decreases r - i
  {
    if i >= r then [] else [Window(i, Min(i + step, r))] + Strides(r, i + step, step)
  }

  /** The windows `split_fasta` yields for r records and a given step. A
      positive step strides through the records; a step of 0 or -1 yields
      nothing; a step of -2 or less makes Python's negative slice bounds
      count from the end, so one window of r + step + 1 records comes out. */
  function Windows(r: nat, step: int): (ws: seq<Window>)
    ensures forall k :: 0 <= k < |ws| ==> ws[k].first < ws[k].last <= r
  {
    if step >= 1 then Strides(r, 0, step)
    else if step <= -2 && r + step >= 0 then [Window(0, r + step + 1)]
    else []
  }

  /** Where Python puts a slice bound k on a list of length len. */
  function Clamp(k: int, len: nat): (c: nat)
    ensures c <= len
    ensures 0 <= k <= len ==> c == k
  {
    if k < 0 then (if k + len < 0 then 0 else k + len)
    else if k > len then len
    else k
  }

  /** Python's slice-bound rule: a bound past the end stops at the end, a
      negative bound counts back from the end, and one further back than the
      start stops at the start. */
  lemma ClampFromEnd(k: int, len: nat)
    ensures k > len ==> Clamp(k, len) == len
    ensures k < 0 && -k <= len ==> Clamp(k, len) == len + k
    ensures k < 0 && -k > len ==> Clamp(k, len) == 0
  {
  }

  /** Python's `s[lo:hi]` for integer bounds of either sign. */
  function PySlice<T>(s: seq<T>, lo: int, hi: int): seq<T>
  {
    var a := Clamp(lo, |s|);
    var b := Clamp(hi, |s|);
    if a < b then s[a..b] else []
  }

  /** The generator loop of `split_fasta` as written: take the slice of
      step + 1 offsets at index i, stop when it holds at most one, otherwise
      yield the bytes between its first and last offset and advance i by step.
      With a positive step the index runs off the end of the list; with any
      other step the slice is already too short at the second iteration. */
  function GeneratorLoop(pos: seq<nat>, i: int, step: int): seq<(nat, nat)>
    decreases if step >= 1 then |pos| + 1 - Min(i, |pos|) else if i < 0 then 0 else 1
  {
    var w := PySlice(pos, i, i + step + 1);
    if |w| <= 1 then []
    else
      assert step >= 1 ==> i < |pos| - 1;
      assert step <= 0 ==> i >= 0 && i + step < 0;
      [(w[0], w[|w| - 1])] + GeneratorLoop(pos, i + step, step)
  }

  /** The byte ranges of a list of windows. */
  function Bounds(pos: seq<nat>, ws: seq<Window>): seq<(nat, nat)>
    requires forall k :: 0 <= k < |ws| ==> ws[k].first < ws[k].last < |pos|
  {
    if |ws| == 0 then []
    else [(pos[ws[0].first], pos[ws[0].last])] + Bounds(pos, ws[1..])
  }

  lemma {:induction false} BoundsAt(pos: seq<nat>, ws: seq<Window>, k: nat)
    requires forall k :: 0 <= k < |ws| ==> ws[k].first < ws[k].last < |pos|
    requires k < |ws|
    ensures |Bounds(pos, ws)| == |ws|
    ensures Bounds(pos, ws)[k] == (pos[ws[k].first], pos[ws[k].last])
    decreases k
  {
    BoundsLength(pos, ws);
    if k > 0 {
      BoundsAt(pos, ws[1..], k - 1);
    }
  }

  lemma {:induction false} BoundsLength(pos: seq<nat>, ws: seq<Window>)
    requires forall k :: 0 <= k < |ws| ==> ws[k].first < ws[k].last < |pos|
    ensures |Bounds(pos, ws)| == |ws|
    decreases |ws|
  {
    if |ws| > 0 {
      BoundsLength(pos, ws[1..]);
    }
  }

  /** One iteration of the generator loop at a non-negative index that still
      has a record ahead of it. */
  lemma LoopStep(pos: seq<nat>, i: nat, step: nat)
    requires step >= 1 && i < |pos| - 1
    ensures GeneratorLoop(pos, i, step) ==
              [(pos[i], pos[Min(i + step, |pos| - 1)])] + GeneratorLoop(pos, i + step, step)
  {
    var hi := Min(i + step + 1, |pos|);
    assert Clamp(i, |pos|) == i && Clamp(i + step + 1, |pos|) == hi;
    var w := PySlice(pos, i, i + step + 1);
    assert w == pos[i..hi];
    assert w[0] == pos[i] && w[|w| - 1] == pos[Min(i + step, |pos| - 1)];
  }

  lemma StridesUnfold(pos: seq<nat>, i: nat, step: nat)
    requires step >= 1 && i < |pos| - 1
    ensures Bounds(pos, Strides(|pos| - 1, i, step))
         == [(pos[i], pos[Min(i + step, |pos| - 1)])] + Bounds(pos, Strides(|pos| - 1, i + step, step))
  {
    var r := |pos| - 1;
    var rest := Strides(r, i + step, step);
    assert Strides(r, i, step) == [Window(i, Min(i + step, r))] + rest;
    assert ([Window(i, Min(i + step, r))] + rest)[1..] == rest;
  }

  /** If the loop and the windows agree from index i + step on, they agree
      from index i. */
  lemma AgreeStep(pos: seq<nat>, i: nat, step: nat)
    requires step >= 1 && i < |pos| - 1
    requires GeneratorLoop(pos, i + step, step) == Bounds(pos, Strides(|pos| - 1, i + step, step))
    ensures GeneratorLoop(pos, i, step) == Bounds(pos, Strides(|pos| - 1, i, step))
  {
    LoopStep(pos, i, step);
    StridesUnfold(pos, i, step);
  }

  /** Past the last record the loop stops and there is no window left. */
  lemma AgreeDone(pos: seq<nat>, i: nat, step: nat)
    requires step >= 1 && 1 <= |pos| <= i + 1
    ensures GeneratorLoop(pos, i, step) == Bounds(pos, Strides(|pos| - 1, i, step))
  {
    assert |PySlice(pos, i, i + step + 1)| <= 1;
    assert Strides(|pos| - 1, i, step) == [];
  }

  /** Induction along a stride: a property that holds from r on, and that
      holds at any j < r whenever it holds at j + step, holds everywhere. */
  lemma {:induction false} StrideInduction(r: nat, step: nat, holds: nat -> bool, i: nat)
    requires step >= 1
    requires forall j: nat :: r <= j ==> holds(j)
    requires forall j: nat :: j < r && holds(j + step) ==> holds(j)
    ensures holds(i)
    decreases r - i
  {
    if i < r {
      StrideInduction(r, step, holds, i + step);
    }
  }

  /** The generator loop from index i yields the byte ranges of the windows
      from record i on. */
  ghost predicate Agree(pos: seq<nat>, i: nat, step: nat)
    requires |pos| >= 1 && step >= 1
  {
    GeneratorLoop(pos, i, step) == Bounds(pos, Strides(|pos| - 1, i, step))
  }

  /** The base of the induction: at or past the last record. */
  lemma AgreeTail(pos: seq<nat>, step: nat)
    requires |pos| >= 1 && step >= 1
    ensures forall j: nat :: |pos| - 1 <= j ==> Agree(pos, j, step)
  {
    forall j: nat | |pos| - 1 <= j
      ensures Agree(pos, j, step)
    {
      AgreeDone(pos, j, step);
    }
  }

  /** The step of the induction: from index j + step back to index j. */
  lemma AgreeBack(pos: seq<nat>, step: nat)
    requires |pos| >= 1 && step >= 1
    ensures forall j: nat :: j < |pos| - 1 && Agree(pos, j + step, step) ==> Agree(pos, j, step)
  {
    forall j: nat | j < |pos| - 1 && Agree(pos, j + step, step)
      ensures Agree(pos, j, step)
    {
      AgreeStep(pos, j, step);
    }
  }

  lemma StridesAgree(pos: seq<nat>, i: nat, step: nat)
    requires |pos| >= 1 && step >= 1
    ensures Agree(pos, i, step)
  {
    AgreeTail(pos, step);
    AgreeBack(pos, step);
    StrideInduction(|pos| - 1, step, (j: nat) => Agree(pos, j, step), i);
  }

  /** The generator loop as written, with Python's slicing, yields exactly the
      byte ranges of `Windows`, whatever the sign of the step. */
  lemma GeneratorLoopAgrees(pos: seq<nat>, step: int)
    requires |pos| >= 1
    ensures GeneratorLoop(pos, 0, step) == Bounds(pos, Windows(|pos| - 1, step))
  {
    if step >= 1 {
      StridesAgree(pos, 0, step);
    } else if step <= -2 && |pos| - 1 + step >= 0 {
      var w := PySlice(pos, 0, step + 1);
      assert w == pos[0..|pos| + step + 1];
      var w2 := PySlice(pos, step, step + step + 1);
      assert |w2| == 0;
    }
  }

  /** The number of records per shard for r records and n threads:
      `ceil((len(position_list) - 1) / n)`. */
  function Step(r: nat, n: int): int
    requires n != 0
  {
    CeilDiv(r, n)
  }

  /** Window k of a stride starts k strides after the first. */
  lemma {:induction false} StridesFirst(r: nat, i: nat, step: nat, k: nat)
    requires step >= 1 && k < |Strides(r, i, step)|
    ensures Strides(r, i, step)[k].first == i + k * step
    decreases k
  {
    if k > 0 {
      var rest := Strides(r, i + step, step);
      assert Strides(r, i, step)[k] == rest[k - 1] by {
        assert Strides(r, i, step) == [Window(i, Min(i + step, r))] + rest;
      }
      StridesFirst(r, i + step, step, k - 1);
      MulSucc(k - 1, step);
    }
  }

  /** Consecutive windows meet: each ends where the next one begins, and
      every window but the last holds a full step of records. */
  lemma StridesLink(r: nat, i: nat, step: nat, k: nat)
    requires step >= 1 && k + 1 < |Strides(r, i, step)|
    ensures Strides(r, i, step)[k].last == Strides(r, i, step)[k + 1].first
    ensures Strides(r, i, step)[k].last == Strides(r, i, step)[k].first + step
  {
    StridesFirst(r, i, step, k);
    StridesFirst(r, i, step, k + 1);
    assert i + (k + 1) * step == i + k * step + step;
  }

  /** The number of strides is the ceiling of the remaining records over the step. */
  lemma {:induction false} StridesCount(r: nat, i: nat, step: nat)
    requires step >= 1 && i <= r
    ensures (|Strides(r, i, step)| - 1) * step < r - i <= |Strides(r, i, step)| * step
    decreases r - i
  {
    if i < r {
      var rest := Strides(r, i + step, step);
      assert Strides(r, i, step) == [Window(i, Min(i + step, r))] + rest;
      var m := |rest|;
      if i + step <= r {
        StridesCount(r, i + step, step);
        MulSucc(m, step);
        MulSucc(m - 1, step);
      } else {
        assert m == 0;
      }
    }
  }

  lemma MulSucc(a: int, b: int)
    ensures (a + 1) * b == a * b + b
  {
  }

  lemma MulMonotone(a: int, b: int, c: nat)
    requires a <= b
    ensures a * c <= b * c
  {
  }

  lemma MulCancel(a: int, b: int, c: int)
    requires c > 0 && a * c < b * c
    ensures a < b
  {
  }

  /** ceil(r / ceil(r / n)) <= n, and no more strides than records. */
  lemma CountBound(r: int, n: int, step: int, m: int)
    requires n >= 1 && r > 0 && step >= 1 && m >= 1
    requires r <= step * n && (m - 1) * step < r
    ensures m <= n && m <= r
  {
    assert (m - 1) * step < n * step;
    MulCancel(m - 1, n, step);
    MulMonotone(1, step, m - 1);
  }

  lemma CeilDivPositive(a: nat, b: int)
    requires a > 0 && b > 0
    ensures CeilDiv(a, b) >= 1
  {
  }

  /** For n >= 1 and r records: the step is at least one record when there
      are records, and there are ceil(r / step) windows, never more than n
      and never more than r. */
  lemma StepCount(r: nat, n: int)
    requires n >= 1
    ensures var step := Step(r, n);
            var m := |Windows(r, step)|;
            && (r == 0 <==> m == 0)
            && (r > 0 ==> step >= 1 && (m - 1) * step < r <= m * step)
            && m <= n
            && m <= r
  {
    if r > 0 {
      var step := Step(r, n);
      CeilDivPositive(r, n);
      CeilDivIsCeiling(r, n);
      var m := |Strides(r, 0, step)|;
      assert (m - 1) * step < r <= m * step by {
        StridesCount(r, 0, step);
      }
      assert r <= step * n && m >= 1;
      CountBound(r, n, step, m);
    }
  }

  /** For n >= 1, window k covers records k * step up to
      min((k + 1) * step, r): every window holds `step` records except the
      last, which holds between 1 and `step`. */
  lemma WindowShape(r: nat, n: int, k: nat)
    requires n >= 1 && k < |Windows(r, Step(r, n))|
    ensures var step := Step(r, n);
            var ws := Windows(r, step);
            && ws[k] == Window(k * step, Min((k + 1) * step, r))
            && (k + 1 < |ws| ==> ws[k].last - ws[k].first == step)
            && (k + 1 == |ws| ==> 1 <= ws[k].last - ws[k].first <= step && ws[k].last == r)
  {
    var step := Step(r, n);
    CeilDivPositive(r, n);
    StridesFirst(r, 0, step, k);
    MulSucc(k, step);
    if k + 1 < |Windows(r, step)| {
      StridesLink(r, 0, step, k);
    }
  }

  /** For n >= 1 the windows tile the records: the first starts at record 0,
      each ends where the next begins, and the last ends at record r. */
  lemma WindowsTile(r: nat, n: int, k: nat)
    requires n >= 1 && r > 0
    ensures var ws := Windows(r, Step(r, n));
            && |ws| > 0 && ws[0].first == 0 && ws[|ws| - 1].last == r
            && (k + 1 < |ws| ==> ws[k].last == ws[k + 1].first)
  {
    var step := Step(r, n);
    CeilDivPositive(r, n);
    if k + 1 < |Windows(r, step)| {
      StridesLink(r, 0, step, k);
    }
  }

  /** For a negative thread count the step is zero or negative, and at most
      one window comes out; it stops short of the last record. */
  lemma NegativeWindows(r: nat, n: int)
    requires n < 0
    ensures Step(r, n) <= 0
    ensures |Windows(r, Step(r, n))| <= 1
    ensures forall k :: 0 <= k < |Windows(r, Step(r, n))| ==> Windows(r, Step(r, n))[k].last < r
  {
  }

  /** The worked examples: 10 records over 3 threads give shards of 4, 4 and
      2 records; over 6 threads the step is 2 and only 5 shards come out,
      not min(6, 10). */
  lemma Examples()
    ensures Windows(10, Step(10, 3)) == [Window(0, 4), Window(4, 8), Window(8, 10)]
    ensures Step(10, 6) == 2 && |Windows(10, Step(10, 6))| == 5
  {
    assert Step(10, 3) == 4;
    assert Strides(10, 8, 4) == [Window(8, 10)];
    assert Strides(10, 4, 4) == [Window(4, 8), Window(8, 10)];
    assert Step(10, 6) == 2;
    assert |Strides(10, 8, 2)| == 1;
    assert |Strides(10, 6, 2)| == 2;
    assert |Strides(10, 4, 2)| == 3;
    assert |Strides(10, 2, 2)| == 4;
  }
}
